=== FILE: README.md ===
# EyeLink plug-ins for OpenSesame: the decision logic, in Dafny

This project models the parts of the OpenSesame EyeLink plug-ins
(`eyelink_calibrate`, with its tracker wrapper `libeyelink`) that make
decisions of their own, as opposed to handing them to the EyeLink SDK. These
parts are:

- **The dummy tracker** (`libeyelink_dummy`). It stands in for a tracker by
  treating the mouse as the gaze:
  - **Blink emulation** in `sample`: holding the right button down is a
    blink. The pointer is pinned to the bottom edge during the blink and
    snaps back to its pre-blink position afterwards.
  - **Eye-movement event waits.** A saccade starts when a sample lies more
    than 3 pixels from a start position. A fixation starts when five
    consecutive samples lie less than 3 pixels apart on each axis.
    `wait_for_event` dispatches to these waits and to the blink waits.
  - **Drift correction.** Manual mode tests the one sample taken when space
    is pressed. Fixation-triggered mode gathers samples in an accumulator
    and tests their integer mean against the target.
- **Helpers of the real-tracker wrapper**:
  - the check on the data file's name in the constructor;
  - stripping log messages to ASCII;
  - choosing which eye to read;
  - packing the camera image's palette into 24-bit words.
- **The `prepare` and `run` steps of the `eyelink_calibrate` item.** `prepare`
  chooses between the real tracker and the dummy, and derives the EDF
  data-file name from the experiment's log file. `run` decodes the `yes`
  options.

The modules follow the source. The supporting modules are:

- `Results`: the errors raised and a result type.
- `Geometry`: points, squared distances, the screen centre.
- `Text`: character filtering.
- `Paths`: the POSIX `basename` and `splitext`.

The modules that model the source are:

- `Eyelink`: the helpers of `libeyelink`.
- `Palette`: `set_image_palette`.
- `Blink`: the dummy's `sample` and blink waits.
- `Motion`: the saccade and fixation waits.
- `Drift`: the dummy's drift correction, and the accumulator step shared
  with the real tracker.
- `Dummy`: the dummy's constructor, its `wait_for_event` dispatch and its
  `drift_correction` entry point.
- `Calibrate`: the item's `prepare` and `run`.

Everything is a pure function over immutable values. The keyboard, the mouse
and the clock are inputs:

- Each polling loop reads a finite script of polls. A poll holds the right
  button's state and the pointer position. For drift correction a poll also
  holds what the keyboard reported: no key, a key of the loop's key list, or
  Escape. OpenSesame's keyboard raises `response_error` for Escape before it
  looks at the key list, and neither of the dummy's loops catches it. The
  model records this as the error `EscapePressed`.
- Each loop reports how many polls it used. If the script runs out before
  the loop would stop, it says so (`Pending`, `Waiting`, `Polling`,
  `NoKey`, `Unfinished`); the source would keep polling.
- Time stamps are not modelled; the number of polls used stands in for them.

The dummy computes distances as the floating-point power `d2 ** 0.5`. The
model compares squared distances against squared thresholds instead. For
exact arithmetic on integers:

- `sqrt(d2) < r` holds exactly when `0 < r` and `d2 < r*r`.
- `sqrt(d2) > r` holds exactly when `r < 0` or `d2 > r*r`.

Double-precision arithmetic with a correctly rounded square root agrees with
this for every `d2` whenever the threshold `r` is at most 2^26:

- If `d2 >= r*r`, rounding is monotone and `r*r` and `r` are exact, so the
  float root is at least `r`.
- If `d2 < r*r <= 2^52`, then `d2` is exact, and its root lies at least
  `1/(2r)` below `r`. That gap is more than half a unit in the last place
  near `r`.

This covers the radii 3 and 60 and the default `max_dev`. A larger `max_dev`
can disagree even below 2^53; "Left out" lists it.

Python 2's integer `/` floors. It agrees with Dafny's `/` for the positive
divisors it is used with here: halving a screen size, and dividing by the
sample count.

Where the code and its documentation disagree, the model follows the code:

- Fixation-triggered drift correction ignores a sample equal to the last
  accepted one. So, without blink emulation, a pointer held perfectly still
  never fills the accumulator, and the correction never succeeds (`Drift.StillPointerNeverAccepted`,
  `Dummy.StillMouseNeverCorrects`). It does not succeed after 30 identical
  samples.
- The `subject-` rename in `prepare` can never fire, because the dash has
  already been filtered out (`Calibrate.SubjectRenameNeverFires`). Long
  `subject-N` names are therefore rejected by the constructor, not
  shortened.
- The dummy's constructor enables blink emulation only when the mouse object
  has `get_pressed` and a method spelled `set_poesje`. The model takes both
  as inputs, and `Dummy.NoPoesjeMeansRawMouse` states what happens when the
  second is missing.
- `wait_for_blink_start` called while a blink is already under way returns a
  local variable it never assigned. This raises, and is modelled as the
  error `PositionUnbound`.

## Model

| member | source | states |
|---|---|---|
| `Geometry.Center` | eyelink_calibrate/libeyelink.py:919 | the screen centre is each dimension halved with integer division: `width - 1 <= 2*x <= width`, and the same for `y` |
| `Paths.Basename` | eyelink_calibrate/eyelink_calibrate.py:76-77 | the base name is a suffix of the path with no `/` in it, and what precedes it, if anything, ends with `/` |
| `Paths.SplitExt` | eyelink_calibrate/libeyelink.py:81 | the stem and extension concatenate back to the name; the extension is empty or is one dot followed by neither a dot nor a `/`; it is non-empty exactly when the base name has a dot after some character that is not a dot |
| `Paths.SplitsIffHasExtension` | eyelink_calibrate/libeyelink.py:81 | `splitext` finds an extension exactly when the base name has a dot that follows some character other than a dot |
| `Paths.SplitEdfName` | eyelink_calibrate/eyelink_calibrate.py:80 | a stem with no dot or slash, plus `.edf`, splits back into that stem and `.edf`; the empty stem gives `(".edf", "")` |
| `Text.FilterConcat` | eyelink_calibrate/eyelink_calibrate.py:76-79 | filtering works character by character: it distributes over concatenation |
| `Text.FilterKeepsAllIff` | eyelink_calibrate/libeyelink.py:220-225 | a string survives filtering unchanged exactly when every character passes |
| `Eyelink.CheckDataFile` | eyelink_calibrate/libeyelink.py:81-84 | the constructor raises `FileNameTooLong` exactly when the stem is over 8 characters or the extension, dot included, is over 4; otherwise it keeps the name unchanged |
| `Eyelink.Log` | eyelink_calibrate/libeyelink.py:220-225 | the logged message contains only ASCII characters, and equals the input exactly when the input is all ASCII |
| `Eyelink.LogCharacterwise` | eyelink_calibrate/libeyelink.py:222-225 | stripping keeps each ASCII character, drops each other one, and works character by character |
| `Eyelink.SetEyeUsed` | eyelink_calibrate/libeyelink.py:567-575 | succeeds exactly for the left, right and binocular codes and otherwise raises `EyeUndetermined`; the result is right exactly when the tracker reports right, and left otherwise |
| `Eyelink.EyeUsedIsRecorded` | eyelink_calibrate/libeyelink.py:568-572 | the chosen eye is the reported one, except for binocular; the logged `var eye_used` message names it |
| `Palette.SetImagePalette` | eyelink_calibrate/libeyelink.py:1572-1580 | there is one word per entry of `r`, and the call raises when `g` or `b` is shorter; each word is below 2^24 and unpacks to `(r[i], g[i], b[i])` with blue in the high byte |
| `Palette.UnpackPack` | eyelink_calibrate/libeyelink.py:1576-1579 | packing loses nothing: the three channels come back out of the word |
| `Palette.PackInjective` | eyelink_calibrate/libeyelink.py:1579 | distinct colours give distinct palette words |
| `Palette.PackIsSum` | eyelink_calibrate/libeyelink.py:1579 | the shifted channels do not overlap, so the or-ed word is their weighted sum |
| `Blink.Sample` | eyelink_calibrate/libeyelink.py:1089-1103 | without emulation the sample is the pointer and nothing changes. With emulation: blinking afterwards equals the button; a press while open records the live position as `bbpos` and reports `(bbpos.x, height)`; a press while blinking keeps `bbpos`; a release while blinking reports `bbpos`; a release while open changes nothing |
| `Blink.DisabledIsPointer` | eyelink_calibrate/libeyelink.py:1089-1103 | without emulation, any run of samples is the raw pointer positions, and the state never changes |
| `Blink.BlinkingMirrorsButton` | eyelink_calibrate/libeyelink.py:1090-1101 | with emulation, after any run of polls the eyes are closed exactly when the last poll had the button down; every sample taken with the button down lies on the bottom edge |
| `Blink.HeldButtonKeepsBbpos` | eyelink_calibrate/libeyelink.py:1091-1092 | while the button stays down during a blink, the state does not change and every sample is `(bbpos.x, height)` |
| `Blink.BlinkRestoresPosition` | eyelink_calibrate/libeyelink.py:1093-1101 | after press, hold and release, the pointer is reported back where it was at the press, and the eyes are open |
| `Blink.AfterConcat` | eyelink_calibrate/libeyelink.py:1085-1103 | sampling two runs of polls in turn is sampling their concatenation, both for the state and for the positions |
| `Blink.UntilClosed` | eyelink_calibrate/libeyelink.py:1242-1243 | the loop stops at the first press; the last sample is pinned to the bottom edge; `bbpos` is the pointer at the press |
| `Blink.UntilOpen` | eyelink_calibrate/libeyelink.py:1263-1264 | the loop stops at the first release; the last sample is the pre-blink position; the eyes are open |
| `Blink.WaitForBlinkStart` | eyelink_calibrate/libeyelink.py:1234-1249 | without emulation returns `(0,0)` at once; with emulation raises exactly when a blink is already under way, and otherwise returns the pinned position at the first press |
| `Blink.WaitForBlinkEnd` | eyelink_calibrate/libeyelink.py:1251-1270 | never raises. With emulation and a blink under way, it returns at the first release. With the eyes open, it returns at the first release after the first press. Every poll in between is pressed. It leaves the eyes open and returns the pre-blink position: the pointer at that press, or the old `bbpos`. The state is that of the polls taken. If the polls run out, the button has stayed down since the blink began |
| `Blink.BlinkEndAtRelease` | eyelink_calibrate/libeyelink.py:1251-1270 | with emulation and the eyes open, a press at `p`, held polls and a release end the wait at the release. The result is position `p`, with `p` remembered as the pre-blink position |
| `Motion.SpanBelowIffStable` | eyelink_calibrate/libeyelink.py:1208 | the test of `wait_for_fixation_start`, max minus min below 3 on both axes (the same test is at line 1178 in `wait_for_saccade_end`), holds exactly when every two samples lie less than 3 pixels apart on each axis |
| `Motion.SpreadIffClose` | eyelink_calibrate/libeyelink.py:1208 | a list's max minus min is below `e` exactly when every two elements differ by less than `e` |
| `Motion.WindowStep` | eyelink_calibrate/libeyelink.py:1200-1212 | the window reports stability only once it holds five samples, and only if they are still; between iterations it holds at most four samples, the newest ones |
| `Motion.WindowStepAt` | eyelink_calibrate/libeyelink.py:1200-1212 | one loop turn at history index `i` reports exactly whether the five samples ending at `i` are still, and leaves the window holding the samples just before `i + 1` |
| `Motion.StableScan` | eyelink_calibrate/libeyelink.py:1199-1213 | the loop stops at the first index where the last five samples are still, and returns the newest of them; if the script runs out, no such index existed |
| `Motion.WaitForFixationStart` | eyelink_calibrate/libeyelink.py:1189-1215 | returns after the first five consecutive still samples, never earlier, with the newest one as the fixation position |
| `Motion.StillHeadIsFixation` | eyelink_calibrate/libeyelink.py:1196-1215 | five still samples at the head of the stream end the wait at the fifth |
| `Motion.LeaveFrom` | eyelink_calibrate/libeyelink.py:1139-1142 | stops at the first sample more than 3 pixels from the origin, and returns the origin, not that sample |
| `Motion.WaitForSaccadeStart` | eyelink_calibrate/libeyelink.py:1130-1144 | the first sample is the start; the wait ends at the first later sample more than 3 pixels away, and returns the start |
| `Motion.WaitForFixationEnd` | eyelink_calibrate/libeyelink.py:1217-1232 | after a fixation is found, the wait ends at the first later sample more than 3 pixels from the fixation position, and returns that position. If the samples run out, either no fixation began or every later sample stayed at most 3 pixels from it |
| `Motion.StillBeforeSuffix` | eyelink_calibrate/libeyelink.py:1164-1187 | dropping the samples taken by the saccade-start wait shifts every five-sample window by the same amount |
| `Motion.WaitForSaccadeEnd` | eyelink_calibrate/libeyelink.py:1156-1187 | after a saccade starts, the wait ends at the first still five-sample window among the later samples; it returns the start position and the newest still sample. If the samples run out, either no saccade began or no later five-sample window was still |
| `Drift.Accumulate` | eyelink_calibrate/libeyelink.py:1032-1042 | the step shared with the real tracker (lines 416-425): a repeat of the last accepted sample is ignored; a jump of more than `reset_threshold` on either axis empties the accumulator and is not kept; anything else is appended. The invariant that consecutive accepted samples differ, by at most `reset_threshold` per axis, is preserved |
| `Drift.MeanIsFloor` | eyelink_calibrate/libeyelink.py:1046-1047 | each coordinate of the mean is the floor of the exact average |
| `Drift.NoneAcceptedIff` | eyelink_calibrate/libeyelink.py:1022-1055 | the fold of the loop over the samples taken agrees with a turn-by-turn reading. No turn accepted exactly when the accumulator judged at each turn was not acceptable |
| `Drift.FixIteration` | eyelink_calibrate/libeyelink.py:1023-1055 | `q` ends the loop with False and Escape with `response_error`, each before any sample. Otherwise one sample is taken and goes through `Accumulate`. The loop ends with True, carrying that accumulator, exactly when the accumulator is full and its mean lies less than `max_dev` from the target. Otherwise the next iteration gets the accumulator, or an empty one if it had filled. The accumulator never reaches `min_samples` while the loop goes on |
| `Drift.AfterFirstTick` | eyelink_calibrate/libeyelink.py:1022-1036 | sampling the first `u + 1` iterations is sampling the first, then the next `u` |
| `Drift.FixLoop` | eyelink_calibrate/libeyelink.py:1022-1055 | True comes only with `min_samples` chained samples whose integer mean lies closer than `max_dev` to the target, and with no key before it. False comes only at the first key, which is `q`; `response_error` comes only at the first key, which is Escape. If the polls run out, no key was pressed. The blink state is that of the samples actually taken |
| `Drift.FixLoopFeeds` | eyelink_calibrate/libeyelink.py:1022-1055 | every outcome of the loop agrees with the fold of `Accumulate` over the gaze positions taken. True carries the accumulator held at the last turn, and no earlier turn held an acceptable one. After a key, or at the end of the polls, no turn held one |
| `Drift.FixTriggered` | eyelink_calibrate/libeyelink.py:1005-1055 | returns None exactly when `min_samples <= 0`. Otherwise True comes at the first iteration whose accumulator, folded from an empty one over the gaze positions taken, is acceptable. False comes only when the deciding key is `q`, and `response_error` only when it is Escape. Either key, and the end of the polls, come before any such iteration. Each outcome carries the blink state of the samples taken |
| `Drift.StillPointerNeverAccepted` | eyelink_calibrate/libeyelink.py:1032-1042 | without blink emulation, a pointer held perfectly still never leads to True when `min_samples >= 2`: repeats are ignored, so the accumulator stays at one sample |
| `Drift.ManualLoop` | eyelink_calibrate/libeyelink.py:980-997 | the result comes at the first key, and no sample is taken before it. Space gives True exactly when the one sample then taken lies less than 60 pixels from the target. Escape raises `response_error` without a sample |
| `Dummy.NewDummy` | eyelink_calibrate/libeyelink.py:906-926 | a new dummy is not recording and its eyes are open; its pre-blink position is the screen centre; blink emulation is on exactly when the mouse has both methods the constructor looks for |
| `Dummy.DisabledSamplesArePointers` | eyelink_calibrate/libeyelink.py:1089-1103 | without emulation the simulated gaze is exactly the mouse positions, and the state is unchanged |
| `Dummy.NoPoesjeMeansRawMouse` | eyelink_calibrate/libeyelink.py:922-926 | a mouse without a method named `set_poesje` gives a dummy whose gaze is the raw mouse, whatever the buttons do |
| `Dummy.MotionUsed` | eyelink_calibrate/libeyelink.py:1115-1122 | event 5 runs the saccade-start wait, 6 the saccade-end wait, 7 the fixation-start wait and 8 the fixation-end wait. It ends exactly when that wait ends, after the same number of samples, between 1 and all of them |
| `Dummy.WaitForEvent` | eyelink_calibrate/libeyelink.py:1111-1128 | an unknown code returns at once. Event 3 ends, raises or keeps waiting exactly as the blink-start wait does, and event 4 exactly as the blink-end wait does. The saccade and fixation codes end exactly when their motion wait does. Only the blink-start wait can raise, and only during a blink with emulation on. Afterwards the dummy differs only in the blink state left by the samples the wait took |
| `Dummy.DisabledMotionFollowsMouse` | eyelink_calibrate/libeyelink.py:1115-1122 | without emulation, a saccade or fixation wait ends exactly where it would on the raw mouse positions, and leaves the dummy as it was |
| `Dummy.StillMouseStartsFixation` | eyelink_calibrate/libeyelink.py:1119-1120 | without emulation, a mouse held still for five polls makes event 7 return after exactly five samples |
| `Dummy.BlinkEndEventAtRelease` | eyelink_calibrate/libeyelink.py:1125-1126 | with emulation and the eyes open, a press at `p`, held polls and a release make event 4 return at the release. The dummy is unchanged except for remembering `p` as the pre-blink position |
| `Dummy.Target` | eyelink_calibrate/libeyelink.py:982-983 | the target is the given position, or else the screen centre computed by integer halving; `fix_triggered_drift_correction` repeats the same default at lines 1011-1012 |
| `Dummy.FixTriggeredCorrection` | eyelink_calibrate/libeyelink.py:1005-1055 | with the defaults (30, 60, 10), success comes exactly when the deciding iteration had no key, and the accumulator folded over the gaze taken is then acceptable. No earlier iteration's accumulator was acceptable. `q` gives False and clears the recording flag. Escape raises. The blink state is that of the samples taken, and nothing else changes |
| `Dummy.ManualCorrection` | eyelink_calibrate/libeyelink.py:976-997 | the answer comes at the first space, and is whether the sample then taken lies less than 60 pixels from the target. That sample alone changes the blink state. Escape raises and leaves the dummy as it was |
| `Dummy.DriftCorrection` | eyelink_calibrate/libeyelink.py:970-997 | the flag selects the fixation-triggered or the manual procedure. Escape raises `response_error` at the first key. The blink state is that of the samples taken: all of them up to True, those before `q`, or only the one taken at space. Only a fixation-triggered cancel clears the recording flag |
| `Dummy.StillMouseNeverCorrects` | eyelink_calibrate/libeyelink.py:1032-1042 | without emulation, a mouse held still never makes a fixation-triggered drift correction succeed |
| `Calibrate.AlnumStem` | eyelink_calibrate/eyelink_calibrate.py:76-79 | the kept characters of the log file's stem are all alphanumeric |
| `Calibrate.SubjectRenameNeverFires` | eyelink_calibrate/eyelink_calibrate.py:82-83 | for any filtered stem, the name never starts with `subject-`, so the rename to `S…` never happens |
| `Calibrate.EdfNameIs` | eyelink_calibrate/eyelink_calibrate.py:80-85 | after the renames, the name is the filtered stem plus `.edf`, except that the stem `defaultlog` gives exactly `default.edf` |
| `Calibrate.EdfNameShape` | eyelink_calibrate/eyelink_calibrate.py:75-85 | the derived name ends in `.edf`; every character before it is alphanumeric, and those characters are the filtered stem, or `default` for `defaultlog` |
| `Calibrate.CheckEdfName` | eyelink_calibrate/libeyelink.py:81-84 | for an alphanumeric stem plus `.edf`, the name check fails exactly when the stem is over 8 characters; `.edf` always passes the extension limit |
| `Calibrate.DerivedNameRejectedIff` | eyelink_calibrate/eyelink_calibrate.py:75-93 | the derivation does not bound the length: the constructor rejects a derived name exactly when the filtered stem is over 8 characters and is not `defaultlog` |
| `Calibrate.Prepare` | eyelink_calibrate/eyelink_calibrate.py:71-100 | the dummy is chosen exactly when `tracker_attached` is not `Yes`, and only the real path can fail, with `FileNameTooLong`. The real tracker gets the derived name, the display size and the saccade thresholds, and forces drift correction exactly when the option is `yes` |
| `Calibrate.PrepareRejectsIff` | eyelink_calibrate/eyelink_calibrate.py:71-94 | with the tracker attached, `prepare` fails exactly when the alphanumeric stem is over 8 characters and is not `defaultlog` |
| `Calibrate.Run` | eyelink_calibrate/eyelink_calibrate.py:126-127 | calibration beeps exactly when `cal_beep` is `yes`, and uses the configured target size |

## Left out

- All calls into the `pylink` SDK are left out. This covers: connecting, sending commands, starting and stopping recording, reading samples and events from the real tracker, drift correction and calibration on the tracker, and transferring the data file. These are foreign calls whose behaviour is not visible. Of the real fix-triggered drift correction only the accumulator step is modelled (`Drift.Accumulate`); its retry on a calibration error is left out.
- The host's keyboard, mouse, sound, canvas, clock and sleeps are left out. They become the scripted polls described above. Time stamps are not returned, and the 10 ms sleeps of the stability loops are not modelled.
- Printing, the dummy's `send_command`, `log`, `status_msg` and `calibrate` stubs, and `pupil_size` and `get_eyelink_clock_async` (constant 0) are left out: they only print or return constants.
- The dummy's `start_recording`, `stop_recording` and `close` are left out. They only set the recording flag and show or hide the mouse. The flag is kept only where drift correction clears it.
- The dummy's `log_var` is left out, because its format expression is broken (`'%s %d' % var` with two placeholders and one value) and raises.
- Showing and hiding the mouse cursor, and the error beep of manual drift correction, are left out; they have no observable result in the model.
- The `eyelink_graphics` drawing, keyboard and image methods are left out, apart from the palette packing. So are the Qt panel classes and the `eyelink_log` item: they are host glue.
- `Palette.SetImagePalette`: the channels are modelled as bytes (0–255), as the tracker delivers them. A larger Python integer would spill into the next channel, and that is not modelled.
- `Text.IsAlnum`: it accepts ASCII letters and digits only, while Python's `isalnum` on a Unicode string also accepts other scripts' letters and digits.
- `Paths.Basename` and `Paths.SplitExt` follow POSIX paths (`/` only). Windows' `\` separator is not modelled.
- `Blink.Sample` reads the button once per call. The source reads it a second time, in the blinking branch, when the first read says released; a button that changes between the two reads is not modelled.
- `Motion.WindowStep` decides stability with the pairwise test rather than the source's max-minus-min test; `Motion.SpanBelowIffStable` proves the two equal on every window.
- Polling loops that never end in the source end in the model when their script runs out (`Pending`, `Waiting`, `Polling`, `NoKey`, `Unfinished`). The contracts say what holds of the polls read so far.
- The `subject-` rename is modelled as written. It is unreachable, so no shortening of `subject-N` names is modelled.
- `Drift.FixTriggered`: a `max_dev` (`FixConfig.maxDev`) above 2^26 is decided exactly on squared integers, as `Geometry.Closer` does, while the dummy rounds `d2 ** 0.5` in double precision. The two can then disagree. An example is `max_dev = 67117699` with the mean offset `(67117698, 11586)` from the target: `d2 = max_dev² − 1`, which is below 2^53, but its float root rounds to `67117699.0`, so the dummy's test fails where `Closer` holds. The fixed radii 3 and 60 are not affected.
- The Escape behaviour of OpenSesame's `keyboard.get_key`, which raises `response_error` before the key list is consulted, is taken as given. The keyboard is not part of this model.

=== FILE: blink.dfy ===
/**
  The dummy tracker's simulated gaze (`libeyelink_dummy.sample`): the mouse
  position, except while the right button is held, which counts as a blink.
  During a blink the pointer is pinned to the bottom edge below the position
  it had when the blink began (`bbpos`); when the button is released the
  pointer is put back there.
 */
module Blink {
  import opened Geometry
  import opened Results

  /**
    `enabled` is the constructor's `blinkfun` (blink emulation is possible
    with this mouse back-end); `blinking` and `bbpos` persist between samples.
   */
  datatype BlinkState = BlinkState(enabled: bool, blinking: bool, bbpos: Point)

  /**
    What one call of `sample` reads from the mouse: whether the right button
    is down, and the pointer position before `sample` moves it.
   */
  datatype Poll = Poll(pressed: bool, pointer: Point)

  /**
    One call of `sample` on a display `height` pixels high: the reported
    position and the state afterwards. Moving the pointer with `set_pos` and
    reading it back with `get_pos` yields the position set.
   */
  function Sample(s: BlinkState, height: int, p: Poll): (r: (Point, BlinkState))
    ensures r.1.enabled == s.enabled
    ensures !s.enabled ==> r == (p.pointer, s)
    ensures s.enabled ==> r.1.blinking == p.pressed
    // pressing while open: the blink starts at the live position
    ensures s.enabled && p.pressed && !s.blinking ==>
      r.1.bbpos == p.pointer && r.0 == Point(p.pointer.x, height)
    // pressing while closed: the remembered position is kept
    ensures s.enabled && p.pressed && s.blinking ==>
      r.1.bbpos == s.bbpos && r.0 == Point(s.bbpos.x, height)
    // releasing while closed: back to the remembered position
    ensures s.enabled && !p.pressed && s.blinking ==>
      r.1 == s.(blinking := false) && r.0 == s.bbpos
    // releasing while open: nothing changes
    ensures s.enabled && !p.pressed && !s.blinking ==> r == (p.pointer, s)
  {
    if !s.enabled then (p.pointer, s)
    else if s.blinking then
      if p.pressed then (Point(s.bbpos.x, height), s)
      else (s.bbpos, s.(blinking := false))
    else if p.pressed then
      var s' := s.(blinking := true, bbpos := p.pointer);
      (Point(s'.bbpos.x, height), s')
    else (p.pointer, s)
  }

  /** The positions reported by sampling once per poll. */
  function Positions(s: BlinkState, height: int, polls: seq<Poll>): (ps: seq<Point>)
    ensures |ps| == |polls|
    decreases polls
  {
    if polls == [] then []
    else [Sample(s, height, polls[0]).0] + Positions(Sample(s, height, polls[0]).1, height, polls[1..])
  }

  /** The state after sampling once per poll. */
  function After(s: BlinkState, height: int, polls: seq<Poll>): BlinkState
    decreases polls
  {
    if polls == [] then s
    else After(Sample(s, height, polls[0]).1, height, polls[1..])
  }

  lemma {:induction false} AfterConcat(s: BlinkState, height: int, a: seq<Poll>, b: seq<Poll>)
    ensures After(s, height, a + b) == After(After(s, height, a), height, b)
    ensures Positions(s, height, a + b) == Positions(s, height, a) + Positions(After(s, height, a), height, b)
    decreases a
  {
    if a != [] {
      assert (a + b)[0] == a[0];
      assert (a + b)[1..] == a[1..] + b;
      AfterConcat(Sample(s, height, a[0]).1, height, a[1..], b);
    } else {
      assert a + b == b;
    }
  }

  /** Sampling the first `u1 + u2` polls is sampling the first `u1`, then the next `u2`. */
  lemma AfterSplit(s: BlinkState, height: int, polls: seq<Poll>, u1: nat, u2: nat)
    requires u1 + u2 <= |polls|
    ensures After(s, height, polls[..u1 + u2]) == After(After(s, height, polls[..u1]), height, polls[u1..][..u2])
  {
    assert polls[..u1 + u2] == polls[..u1] + polls[u1..][..u2];
    AfterConcat(s, height, polls[..u1], polls[u1..][..u2]);
  }

  /** Without blink emulation the samples are the raw pointer positions and the state never changes. */
  lemma {:induction false} DisabledIsPointer(s: BlinkState, height: int, polls: seq<Poll>)
    requires !s.enabled
    ensures After(s, height, polls) == s
    ensures forall i :: 0 <= i < |polls| ==> Positions(s, height, polls)[i] == polls[i].pointer
  {
    if polls != [] {
      DisabledIsPointer(s, height, polls[1..]);
    }
  }

  /**
    With blink emulation the state mirrors the button: after a non-empty run of
    polls the eyes are closed exactly when the last poll saw the button down,
    and every poll with the button down reports the bottom edge.
   */
  lemma {:induction false} BlinkingMirrorsButton(s: BlinkState, height: int, polls: seq<Poll>)
    requires s.enabled
    ensures After(s, height, polls).enabled
    ensures polls != [] ==> After(s, height, polls).blinking == polls[|polls| - 1].pressed
    ensures forall i :: 0 <= i < |polls| && polls[i].pressed ==> Positions(s, height, polls)[i].y == height
    decreases polls
  {
    if polls != [] {
      var s1 := Sample(s, height, polls[0]).1;
      BlinkingMirrorsButton(s1, height, polls[1..]);
      var ps := Positions(s, height, polls);
      assert ps[1..] == Positions(s1, height, polls[1..]);
      forall i | 1 <= i < |polls| && polls[i].pressed
        ensures ps[i].y == height
      {
        assert polls[1..][i - 1] == polls[i];
        assert ps[i] == ps[1..][i - 1];
      }
    }
  }

  /** A run of polls with the button held leaves an ongoing blink, and its remembered position, as it was. */
  lemma {:induction false} HeldButtonKeepsBbpos(s: BlinkState, height: int, held: seq<Poll>)
    requires s.enabled && s.blinking
    requires forall i :: 0 <= i < |held| ==> held[i].pressed
    ensures After(s, height, held) == s
    ensures forall i :: 0 <= i < |held| ==> Positions(s, height, held)[i] == Point(s.bbpos.x, height)
  {
    if held != [] {
      HeldButtonKeepsBbpos(s, height, held[1..]);
    }
  }

  /**
    A whole blink: press at `p`, hold for any number of polls, release. The
    release reports `p` again, the eyes are open, and `p` is remembered.
   */
  lemma BlinkRestoresPosition(s: BlinkState, height: int, p: Point, held: seq<Poll>, q: Point)
    requires s.enabled && !s.blinking
    requires forall i :: 0 <= i < |held| ==> held[i].pressed
    ensures var polls := [Poll(true, p)] + held + [Poll(false, q)];
      && Positions(s, height, polls)[|polls| - 1] == p
      && After(s, height, polls) == s.(bbpos := p)
  {
    var closed := s.(blinking := true, bbpos := p);
    HeldButtonKeepsBbpos(closed, height, held);
    AfterConcat(s, height, [Poll(true, p)], held);
    AfterConcat(s, height, [Poll(true, p)] + held, [Poll(false, q)]);
  }

  /** A poll loop over a finite script: the event came after `used` polls, or the script ran out first. */
  datatype Scan = Found(used: nat, last: Point, state: BlinkState) | Exhausted

  /** `while not self.blinking: pos = self.sample()`, started with the eyes open. */
  function UntilClosed(s: BlinkState, height: int, polls: seq<Poll>): (r: Scan)
    requires s.enabled && !s.blinking
    ensures r.Found? ==>
      && 1 <= r.used <= |polls|
      && polls[r.used - 1].pressed
      && (forall j :: 0 <= j < r.used - 1 ==> !polls[j].pressed)
      && r.last == Point(polls[r.used - 1].pointer.x, height)
      && r.state == s.(blinking := true, bbpos := polls[r.used - 1].pointer)
      && r.state == After(s, height, polls[..r.used])
    ensures r.Exhausted? ==> forall j :: 0 <= j < |polls| ==> !polls[j].pressed
    decreases polls
  {
    if polls == [] then Exhausted
    else
      var (pos, s') := Sample(s, height, polls[0]);
      if s'.blinking then
        assert polls[..1][1..] == [];
        Found(1, pos, s')
      else
        match UntilClosed(s', height, polls[1..])
        case Exhausted => Exhausted
        case Found(u, last, st) =>
          assert polls[..u + 1][1..] == polls[1..][..u];
          Found(u + 1, last, st)
  }

  /** `while self.blinking: epos = self.sample()`, started with the eyes closed. */
  function UntilOpen(s: BlinkState, height: int, polls: seq<Poll>): (r: Scan)
    requires s.enabled && s.blinking
    ensures r.Found? ==>
      && 1 <= r.used <= |polls|
      && !polls[r.used - 1].pressed
      && (forall j :: 0 <= j < r.used - 1 ==> polls[j].pressed)
      && r.last == s.bbpos
      && r.state == s.(blinking := false)
      && r.state == After(s, height, polls[..r.used])
    ensures r.Exhausted? ==> forall j :: 0 <= j < |polls| ==> polls[j].pressed
    decreases polls
  {
    if polls == [] then Exhausted
    else
      var (pos, s') := Sample(s, height, polls[0]);
      if !s'.blinking then
        assert polls[..1][1..] == [];
        Found(1, pos, s')
      else
        match UntilOpen(s', height, polls[1..])
        case Exhausted => Exhausted
        case Found(u, last, st) =>
          assert polls[..u + 1][1..] == polls[1..][..u];
          Found(u + 1, last, st)
  }

  /** The outcome of `wait_for_blink_start` or `wait_for_blink_end`. */
  datatype BlinkWait =
    | Returned(used: nat, pos: Point, state: BlinkState)
    | Raised(error: Error)
    | Waiting

  /** Without blink emulation both waits return `(0, 0)` at once. */
  const NoBlinkPosition := Point(0, 0)

  /**
    `wait_for_blink_start`: poll until a blink starts and return the last
    sample, the pinned position. Called during a blink, the loop body never
    runs and the function returns a variable it never assigned.
   */
  function WaitForBlinkStart(s: BlinkState, height: int, polls: seq<Poll>): (r: BlinkWait)
    ensures !s.enabled ==> r == Returned(0, NoBlinkPosition, s)
    ensures s.enabled ==> (r.Raised? <==> s.blinking)
    ensures r.Raised? ==> r.error == PositionUnbound
    ensures s.enabled && r.Returned? ==>
      && 1 <= r.used <= |polls|
      && polls[r.used - 1].pressed
      && (forall j :: 0 <= j < r.used - 1 ==> !polls[j].pressed)
      && r.pos == Point(r.state.bbpos.x, height)
      && r.state == s.(blinking := true, bbpos := polls[r.used - 1].pointer)
      && r.state == After(s, height, polls[..r.used])
    ensures r.Waiting? ==> forall j :: 0 <= j < |polls| ==> !polls[j].pressed
  {
    if !s.enabled then Returned(0, NoBlinkPosition, s)
    else if s.blinking then Raised(PositionUnbound)
    else match UntilClosed(s, height, polls)
      case Exhausted => Waiting
      case Found(u, last, st) => Returned(u, last, st)
  }

  /** The wait for the release, started at poll `from`, in the indices of the whole script. */
  lemma UntilOpenFrom(s: BlinkState, height: int, polls: seq<Poll>, from: nat)
    requires s.enabled && s.blinking && from <= |polls|
    ensures var o := UntilOpen(s, height, polls[from..]);
      && (o.Exhausted? ==> forall j :: from <= j < |polls| ==> polls[j].pressed)
      && (o.Found? ==>
        && from + o.used <= |polls|
        && !polls[from + o.used - 1].pressed
        && forall j :: from <= j < from + o.used - 1 ==> polls[j].pressed)
  {
    var rest := polls[from..];
    assert forall j :: from <= j < |polls| ==> polls[j] == rest[j - from];
  }

  /** The index of the first poll with the button down, or the number of polls when there is none. */
  function FirstPress(polls: seq<Poll>): (k: nat)
    ensures k <= |polls|
    ensures k < |polls| ==> polls[k].pressed
    ensures forall j :: 0 <= j < k ==> !polls[j].pressed
  {
    if polls == [] || polls[0].pressed then 0 else FirstPress(polls[1..]) + 1
  }

  /**
    `wait_for_blink_end`: wait for a blink to start if none is under way,
    then for it to end, and return the position the pointer snaps back to.
    The blink runs from its press (or from the start, when one is already
    under way) with the button held, and the wait returns at the first
    release; while the button stays down it keeps waiting.
   */
  function WaitForBlinkEnd(s: BlinkState, height: int, polls: seq<Poll>): (r: BlinkWait)
    ensures !r.Raised?
    ensures !s.enabled ==> r == Returned(0, NoBlinkPosition, s)
    ensures s.enabled && r.Returned? ==>
      var k := if s.blinking then 0 else FirstPress(polls) + 1;
      && k < r.used <= |polls|
      && !polls[r.used - 1].pressed
      && (forall j :: k <= j < r.used - 1 ==> polls[j].pressed)
      && !r.state.blinking
      && r.pos == r.state.bbpos
      && r.state == After(s, height, polls[..r.used])
      && r.pos == (if s.blinking then s.bbpos else polls[k - 1].pointer)
    ensures r.Waiting? ==>
      var k := if s.blinking then 0 else FirstPress(polls) + 1;
      && s.enabled
      && forall j :: k <= j < |polls| ==> polls[j].pressed
  {
    if !s.enabled then Returned(0, NoBlinkPosition, s)
    else if s.blinking then
      match UntilOpen(s, height, polls)
      case Exhausted => Waiting
      case Found(u, last, st) => Returned(u, last, st)
    else
      match UntilClosed(s, height, polls)
      case Exhausted => Waiting
      case Found(u1, _, s1) =>
        assert FirstPress(polls) == u1 - 1;
        UntilOpenFrom(s1, height, polls, u1);
        match UntilOpen(s1, height, polls[u1..])
        case Exhausted => Waiting
        case Found(u2, last, st) =>
          AfterSplit(s, height, polls, u1, u2);
          Returned(u1 + u2, last, st)
  }

  /**
    A whole blink at the head of the script ends the wait at its release,
    whatever follows: the wait reports the press position, and the eyes are
    open with that position remembered.
   */
  lemma BlinkEndAtRelease(s: BlinkState, height: int, p: Point, held: seq<Poll>, q: Point, tail: seq<Poll>)
    requires s.enabled && !s.blinking
    requires forall i :: 0 <= i < |held| ==> held[i].pressed
    ensures WaitForBlinkEnd(s, height, [Poll(true, p)] + held + [Poll(false, q)] + tail) ==
      Returned(|held| + 2, p, s.(bbpos := p))
  {
    var blink := [Poll(true, p)] + held + [Poll(false, q)];
    var polls := blink + tail;
    var r := WaitForBlinkEnd(s, height, polls);
    var n := |held| + 2;
    assert polls[n - 1] == Poll(false, q);
    assert FirstPress(polls) == 0;
    assert forall i :: 1 <= i < n - 1 ==> polls[i] == held[i - 1];
    assert r.Returned? && r.used == n;
    assert polls[..n] == blink;
    BlinkRestoresPosition(s, height, p, held, q);
  }
}

=== FILE: calibrate.dfy ===
/**
  The `eyelink_calibrate` item: in `prepare` it picks the real tracker or the
  dummy and derives the tracker's data-file name from the experiment's log
  file; in `run` it asks for a calibration. Its options arrive as strings and
  numbers; a boolean option is on exactly when its text is `yes`.
 */
module Calibrate {
  import opened Results
  import opened Text
  import opened Paths
  import Eyelink
  import Dummy

  /** The combobox text that selects the real tracker. */
  const TextAttached := "Yes"
  /** The extension the data file is given. */
  const EdfSuffix := ".edf"
  /** The rename meant to shorten `subject-N` log files to `SN`. */
  const SubjectPrefix := "subject-"
  /** The log-file stem that is renamed to `default`. */
  const DefaultLogStem := "defaultlog"

  /** The item's options, as `self.get` returns them. */
  datatype Options = Options(
    trackerAttached: string,
    logfile: string,
    width: int,
    height: int,
    saccVelThresh: int,
    saccAccThresh: int,
    calTargetSize: int,
    calBeep: string,
    forceDriftCorrect: string)

  /** A boolean option, decoded by comparison with `yes`. */
  predicate IsYes(option: string)
  {
    option == "yes"
  }

  /** Python's `s[:n]`: the first `n` characters, or all of a shorter string. */
  function Head(s: string, n: nat): (h: string)
    ensures |h| == if |s| < n then |s| else n
    ensures h <= s
  {
    if |s| < n then s else s[..n]
  }

  /** Every character of `s` is alphanumeric. */
  predicate AllAlnum(s: string)
  {
    forall i :: 0 <= i < |s| ==> IsAlnum(s[i])
  }

  /** The alphanumeric characters of the log file's stem, in order. */
  function AlnumStem(logfile: string): (stem: string)
    ensures AllAlnum(stem)
  {
    Filter(SplitExt(Basename(logfile)).0, IsAlnum)
  }

  /** A string of alphanumeric characters holds no character that is not one. */
  lemma AlnumExcludes(s: string, c: char)
    requires AllAlnum(s)
    requires !IsAlnum(c)
    ensures c !in s
  {
  }

  /**
    The renames `prepare` applies to the filtered stem plus `.edf`: a
    `subject-` prefix shortened to `S`, then `defaultlog.edf` renamed to
    `default.edf`.
   */
  function EdfName(stem: string): string
  {
    var name := stem + EdfSuffix;
    var name := if Head(name, |SubjectPrefix|) == SubjectPrefix then "S" + name[|SubjectPrefix|..] else name;
    if name == DefaultLogStem + EdfSuffix then "default.edf" else name
  }

  /** The data-file name `prepare` derives from the log file's name. */
  function DataFileName(logfile: string): string
  {
    EdfName(AlnumStem(logfile))
  }

  /**
    The `subject-` rename never fires: the dash of the prefix cannot survive
    the alphanumeric filter, and the suffix holds no dash either.
   */
  lemma SubjectRenameNeverFires(stem: string)
    requires AllAlnum(stem)
    ensures Head(stem + EdfSuffix, |SubjectPrefix|) != SubjectPrefix
  {
    var name := stem + EdfSuffix;
    if |name| >= |SubjectPrefix| {
      assert name[7] != '-' by {
        if |stem| > 7 {
          assert name[7] == stem[7];
          assert IsAlnum(stem[7]);
        } else {
          assert name[7] == EdfSuffix[7 - |stem|];
        }
      }
      assert name[..|SubjectPrefix|][7] == name[7];
      assert SubjectPrefix[7] == '-';
    }
  }

  /**
    What the renames come to on a filtered stem: the stem with `.edf`
    appended, except that `defaultlog` becomes `default.edf`.
   */
  lemma EdfNameIs(stem: string)
    requires AllAlnum(stem)
    ensures EdfName(stem) == if stem == DefaultLogStem then "default" + EdfSuffix else stem + EdfSuffix
  {
    SubjectRenameNeverFires(stem);
    if stem + EdfSuffix == DefaultLogStem + EdfSuffix {
      assert stem == (stem + EdfSuffix)[..|stem|];
    }
  }

  /**
    The derived name ends in `.edf`, and every character before it is
    alphanumeric: they are the filtered stem, or `default` for `defaultlog`.
   */
  lemma EdfNameShape(stem: string)
    requires AllAlnum(stem)
    ensures var name := EdfName(stem);
      && |name| >= |EdfSuffix|
      && name[|name| - |EdfSuffix|..] == EdfSuffix
      && name[..|name| - |EdfSuffix|] == (if stem == DefaultLogStem then "default" else stem)
      && AllAlnum(name[..|name| - |EdfSuffix|])
  {
    EdfNameIs(stem);
    var chars := if stem == DefaultLogStem then "default" else stem;
    assert AllAlnum(chars);
    assert EdfName(stem) == chars + EdfSuffix;
    assert (chars + EdfSuffix)[..|chars|] == chars;
    assert (chars + EdfSuffix)[|chars|..] == EdfSuffix;
  }

  /** An alphanumeric stem with `.edf` fails the name check exactly when the stem is over 8 characters. */
  lemma CheckEdfName(stem: string)
    requires AllAlnum(stem)
    ensures Eyelink.CheckDataFile(stem + EdfSuffix).Err? <==> |stem| > Eyelink.MaxStemLength
  {
    AlnumExcludes(stem, '.');
    AlnumExcludes(stem, '/');
    SplitEdfName(stem);
  }

  /**
    The derivation does not bound the name's length: the name check fails
    on a derived name exactly when the filtered stem is over 8 characters and
    is not `defaultlog`.
   */
  lemma DerivedNameRejectedIff(stem: string)
    requires AllAlnum(stem)
    ensures Eyelink.CheckDataFile(EdfName(stem)).Err? <==>
      |stem| > Eyelink.MaxStemLength && stem != DefaultLogStem
  {
    EdfNameIs(stem);
    if stem == DefaultLogStem {
      CheckEdfName("default");
    } else {
      CheckEdfName(stem);
    }
  }

  /** The connection `prepare` opens. */
  datatype Connection =
    | Real(dataFile: string, width: int, height: int, saccVelThresh: int, saccAccThresh: int, forceDriftCorrect: bool)
    | DummyMode(tracker: Dummy.DummyTracker)

  /**
    `eyelink_calibrate.prepare`: with the tracker attached, derive the data
    file's name and open `libeyelink`, whose constructor rejects a name that
    is too long; otherwise open the dummy.
   */
  function Prepare(opts: Options, mouse: Dummy.MouseBackend): (r: Result<Connection>)
    ensures r.Ok? && r.value.DummyMode? <==> opts.trackerAttached != TextAttached
    ensures r.Err? ==> opts.trackerAttached == TextAttached && r.error == FileNameTooLong
    ensures r.Ok? && r.value.Real? ==>
      && r.value.dataFile == DataFileName(opts.logfile)
      && r.value.width == opts.width && r.value.height == opts.height
      && r.value.saccVelThresh == opts.saccVelThresh && r.value.saccAccThresh == opts.saccAccThresh
      && (r.value.forceDriftCorrect <==> opts.forceDriftCorrect == "yes")
    ensures r.Ok? && r.value.DummyMode? ==>
      r.value.tracker == Dummy.NewDummy(opts.width, opts.height, mouse)
  {
    if opts.trackerAttached == TextAttached then
      match Eyelink.CheckDataFile(DataFileName(opts.logfile))
      case Err(e) => Err(e)
      case Ok(f) => Ok(Real(f, opts.width, opts.height, opts.saccVelThresh, opts.saccAccThresh, IsYes(opts.forceDriftCorrect)))
    else Ok(DummyMode(Dummy.NewDummy(opts.width, opts.height, mouse)))
  }

  /**
    The derivation does not bound the name's length, and `.edf` always
    passes the extension check: with the tracker attached, `prepare` fails
    exactly when the alphanumeric stem is longer than 8 characters and is
    not the renamed `defaultlog`.
   */
  lemma PrepareRejectsIff(opts: Options, mouse: Dummy.MouseBackend)
    requires opts.trackerAttached == TextAttached
    ensures Prepare(opts, mouse).Err? <==>
      |AlnumStem(opts.logfile)| > Eyelink.MaxStemLength && AlnumStem(opts.logfile) != DefaultLogStem
  {
    assert Prepare(opts, mouse).Err? <==> Eyelink.CheckDataFile(DataFileName(opts.logfile)).Err?;
    DerivedNameRejectedIff(AlnumStem(opts.logfile));
  }

  /** What `run` asks of the tracker. */
  datatype CalibrationRequest = CalibrationRequest(beep: bool, targetSize: int)

  /** `eyelink_calibrate.run`: calibrate, beeping exactly when `cal_beep` is `yes`. */
  function Run(opts: Options): (r: CalibrationRequest)
    ensures r.beep <==> opts.calBeep == "yes"
    ensures r.targetSize == opts.calTargetSize
  {
    CalibrationRequest(IsYes(opts.calBeep), opts.calTargetSize)
  }
}

=== FILE: drift.dfy ===
/**
  The dummy tracker's drift correction. Fixation-triggered mode
  (`fix_triggered_drift_correction`) collects accepted samples in an
  accumulator and tests their mean against the target once there are
  `min_samples` of them; manual mode (`drift_correction`) tests the one
  sample taken when space is pressed.
  Each loop reads a finite script of ticks: what the keyboard reported in one
  iteration, and what the mouse showed if `sample` was called.
 */
module Drift {
  import opened Geometry
  import opened Blink

  /** Defaults of `fix_triggered_drift_correction`. */
  const DefaultMinSamples := 30
  const DefaultMaxDev := 60
  const DefaultResetThreshold := 10

  /** The radius, in pixels, within which a manual drift correction succeeds. */
  const ErrDist := 60

  /**
    What the keyboard reported in one loop iteration. OpenSesame's keyboard
    raises `response_error` for Escape, and neither dummy loop catches it.
   */
  datatype KeyPress =
    | Quiet   // `get_key` returned no key
    | Listed  // a key of the loop's key list other than Escape: `q`, or space in manual mode
    | Escape  // `get_key` raised

  /** One loop iteration: what the keyboard reported, and the mouse. */
  datatype Tick = Tick(key: KeyPress, poll: Poll)

  /** The mouse readings of a script of ticks. */
  function PollsOf(ticks: seq<Tick>): (polls: seq<Poll>)
    ensures |polls| == |ticks|
  {
    if ticks == [] then [] else [ticks[0].poll] + PollsOf(ticks[1..])
  }

  /** `p` moved more than `resetThreshold` away from `q` on either axis. */
  predicate Jump(q: Point, p: Point, resetThreshold: int)
  {
    Abs(p.x - q.x) > resetThreshold || Abs(p.y - q.y) > resetThreshold
  }

  /**
    The accumulator's invariant: consecutive accepted samples differ, and by
    at most `resetThreshold` on each axis.
   */
  predicate Chained(acc: seq<Point>, resetThreshold: int)
  {
    forall i :: 0 < i < |acc| ==> acc[i - 1] != acc[i] && !Jump(acc[i - 1], acc[i], resetThreshold)
  }

  /**
    One accumulator step, shared by the real and the dummy tracker: a repeat
    of the last accepted sample is ignored, a jump away from it empties the
    accumulator (and the jumping sample is not kept), anything else is
    appended.
   */
  function Accumulate(acc: seq<Point>, p: Point, resetThreshold: int): (r: seq<Point>)
    ensures |acc| > 0 && p == acc[|acc| - 1] ==> r == acc
    ensures |acc| > 0 && p != acc[|acc| - 1] && Jump(acc[|acc| - 1], p, resetThreshold) ==> r == []
    ensures (|acc| == 0 || (p != acc[|acc| - 1] && !Jump(acc[|acc| - 1], p, resetThreshold))) ==>
      r == acc + [p]
    ensures |r| <= |acc| + 1
    ensures Chained(acc, resetThreshold) ==> Chained(r, resetThreshold)
  {
    if |acc| == 0 || p != acc[|acc| - 1] then
      if |acc| > 0 && Jump(acc[|acc| - 1], p, resetThreshold) then []
      else acc + [p]
    else acc
  }

  function SumX(acc: seq<Point>): int
  {
    if acc == [] then 0 else SumX(acc[..|acc| - 1]) + acc[|acc| - 1].x
  }

  function SumY(acc: seq<Point>): int
  {
    if acc == [] then 0 else SumY(acc[..|acc| - 1]) + acc[|acc| - 1].y
  }

  /**
    `(sum(lx) / len(lx), sum(ly) / len(ly))`: Python 2 floors the integer
    quotient, as Dafny's division does for a positive divisor.
   */
  function Mean(acc: seq<Point>): Point
    requires |acc| > 0
  {
    Point(SumX(acc) / |acc|, SumY(acc) / |acc|)
  }

  /** Each coordinate of the mean is the floor of the exact average. */
  lemma MeanIsFloor(acc: seq<Point>)
    requires |acc| > 0
    ensures |acc| * Mean(acc).x <= SumX(acc) < |acc| * (Mean(acc).x + 1)
    ensures |acc| * Mean(acc).y <= SumY(acc) < |acc| * (Mean(acc).y + 1)
  {
  }

  /** The outcome of fixation-triggered drift correction. */
  datatype FixOutcome =
    | Accepted(used: nat, samples: seq<Point>, state: BlinkState)  // returned True
    | Cancelled(used: nat, state: BlinkState)                       // `q`: returned False
    | Aborted(used: nat, state: BlinkState)                         // Escape: `response_error` propagated
    | NoneReturned                                                  // the loop never ran: returned None
    | Polling                                                       // the script ran out first

  /** The parameters of one fixation-triggered drift correction. */
  datatype FixConfig = FixConfig(target: Point, minSamples: int, maxDev: int, resetThreshold: int)

  /** No key was reported in the first `n` ticks. */
  predicate KeyFree(ticks: seq<Tick>, n: nat)
  {
    n <= |ticks| && forall j :: 0 <= j < n ==> ticks[j].key.Quiet?
  }

  /** A full accumulator of chained samples whose mean lies closer than `maxDev` to the target. */
  predicate Acceptable(cfg: FixConfig, samples: seq<Point>)
  {
    && 0 < |samples| == cfg.minSamples
    && Chained(samples, cfg.resetThreshold)
    && Closer(Mean(samples), cfg.target, cfg.maxDev)
  }

  /**
    The accumulator a turn hands to the next one: the sample goes through
    `Accumulate`, and an accumulator that has filled is emptied.
   */
  function Carry(cfg: FixConfig, acc: seq<Point>, p: Point): seq<Point>
  {
    var a := Accumulate(acc, p, cfg.resetThreshold);
    if |a| == cfg.minSamples then [] else a
  }

  /** The accumulator after turns on the samples `ps`, none of which ended the loop. */
  function Feed(cfg: FixConfig, acc: seq<Point>, ps: seq<Point>): seq<Point>
    decreases |ps|
  {
    if ps == [] then acc else Feed(cfg, Carry(cfg, acc, ps[0]), ps[1..])
  }

  /** The accumulator the turn on `ps[k]` judges, after the turns on `ps[..k]`. */
  function Held(cfg: FixConfig, acc: seq<Point>, ps: seq<Point>, k: nat): seq<Point>
    requires k < |ps|
  {
    Accumulate(Feed(cfg, acc, ps[..k]), ps[k], cfg.resetThreshold)
  }

  /**
    None of the turns on the first `n` samples of `ps`, starting from the
    accumulator `acc`, judged an acceptable accumulator.
   */
  predicate NoneAccepted(cfg: FixConfig, acc: seq<Point>, ps: seq<Point>, n: nat)
    decreases n
  {
    && n <= |ps|
    && (n == 0 ||
      (!Acceptable(cfg, Accumulate(acc, ps[0], cfg.resetThreshold))
       && NoneAccepted(cfg, Carry(cfg, acc, ps[0]), ps[1..], n - 1)))
  }

  /** The turn after the first judges what the turns on the rest judge, starting from the carried accumulator. */
  lemma HeldShift(cfg: FixConfig, acc: seq<Point>, p: Point, rest: seq<Point>, k: nat)
    requires k < |rest|
    ensures Held(cfg, acc, [p] + rest, k + 1) == Held(cfg, Carry(cfg, acc, p), rest, k)
  {
    var ps := [p] + rest;
    assert ps[..k + 1][0] == p;
    assert ps[..k + 1][1..] == rest[..k];
    assert ps[k + 1] == rest[k];
  }

  /** No turn on `[p] + rest` accepts exactly when the first does not and no turn on `rest` does. */
  lemma NoneAcceptedStep(cfg: FixConfig, acc: seq<Point>, p: Point, rest: seq<Point>, n: nat)
    ensures NoneAccepted(cfg, acc, [p] + rest, n + 1) <==>
      !Acceptable(cfg, Accumulate(acc, p, cfg.resetThreshold)) && NoneAccepted(cfg, Carry(cfg, acc, p), rest, n)
  {
    assert ([p] + rest)[0] == p && ([p] + rest)[1..] == rest;
  }

  /**
    The fold and the turn-by-turn reading agree: no turn accepted exactly
    when, for each of the first `n` samples, the accumulator judged at it is
    not acceptable.
   */
  lemma {:induction false} NoneAcceptedIff(cfg: FixConfig, acc: seq<Point>, ps: seq<Point>, n: nat)
    requires n <= |ps|
    ensures NoneAccepted(cfg, acc, ps, n) <==> forall k :: 0 <= k < n ==> !Acceptable(cfg, Held(cfg, acc, ps, k))
  {
    if NoneAccepted(cfg, acc, ps, n) {
      NoneAcceptedRejectsEach(cfg, acc, ps, n);
    } else if forall k :: 0 <= k < n ==> !Acceptable(cfg, Held(cfg, acc, ps, k)) {
      RejectingEachIsNoneAccepted(cfg, acc, ps, n);
    }
  }

  /** The `==>` half of `NoneAcceptedIff`. */
  lemma {:induction false} NoneAcceptedRejectsEach(cfg: FixConfig, acc: seq<Point>, ps: seq<Point>, n: nat)
    requires NoneAccepted(cfg, acc, ps, n)
    ensures forall k :: 0 <= k < n ==> !Acceptable(cfg, Held(cfg, acc, ps, k))
    decreases n
  {
    if n > 0 {
      var p, rest := ps[0], ps[1..];
      assert ps == [p] + rest;
      NoneAcceptedRejectsEach(cfg, Carry(cfg, acc, p), rest, n - 1);
      assert ps[..0] == [];
      forall k | 0 <= k < n
        ensures !Acceptable(cfg, Held(cfg, acc, ps, k))
      {
        if k > 0 {
          HeldShift(cfg, acc, p, rest, k - 1);
        }
      }
    }
  }

  /** The `<==` half of `NoneAcceptedIff`. */
  lemma {:induction false} RejectingEachIsNoneAccepted(cfg: FixConfig, acc: seq<Point>, ps: seq<Point>, n: nat)
    requires n <= |ps|
    requires forall k :: 0 <= k < n ==> !Acceptable(cfg, Held(cfg, acc, ps, k))
    ensures NoneAccepted(cfg, acc, ps, n)
    decreases n
  {
    if n > 0 {
      var p, rest := ps[0], ps[1..];
      assert ps == [p] + rest;
      assert ps[..0] == [];
      assert !Acceptable(cfg, Held(cfg, acc, ps, 0));
      forall j | 0 <= j < n - 1
        ensures !Acceptable(cfg, Held(cfg, Carry(cfg, acc, p), rest, j))
      {
        HeldShift(cfg, acc, p, rest, j);
        assert !Acceptable(cfg, Held(cfg, acc, ps, j + 1));
      }
      RejectingEachIsNoneAccepted(cfg, Carry(cfg, acc, p), rest, n - 1);
    }
  }

  /** The gaze positions of the first `n` ticks. */
  function Gaze(s: BlinkState, height: int, ticks: seq<Tick>, n: nat): (ps: seq<Point>)
    requires n <= |ticks|
    ensures |ps| == n
  {
    Positions(s, height, PollsOf(ticks[..n]))
  }

  /** Sampling the first `u + 1` ticks is sampling the first, then the next `u`. */
  lemma AfterFirstTick(s: BlinkState, height: int, ticks: seq<Tick>, u: nat)
    requires u < |ticks|
    ensures After(s, height, PollsOf(ticks[..u + 1])) == After(Sample(s, height, ticks[0].poll).1, height, PollsOf(ticks[1..][..u]))
  {
    assert ticks[..u + 1][0] == ticks[0];
    assert ticks[..u + 1][1..] == ticks[1..][..u];
  }

  /** The gaze of the first `u + 1` ticks is the first sample, then the gaze of the next `u`. */
  lemma GazeFirstTick(s: BlinkState, height: int, ticks: seq<Tick>, u: nat)
    requires u < |ticks|
    ensures Gaze(s, height, ticks, u + 1) ==
      [Sample(s, height, ticks[0].poll).0] + Gaze(Sample(s, height, ticks[0].poll).1, height, ticks[1..], u)
  {
    assert ticks[..u + 1][0] == ticks[0];
    assert ticks[..u + 1][1..] == ticks[1..][..u];
  }

  /** The first `n` ticks reported no key, and sampling them leaves the blink state `st`. */
  predicate QuietRun(s: BlinkState, height: int, ticks: seq<Tick>, n: nat, st: BlinkState)
  {
    KeyFree(ticks, n) && st == After(s, height, PollsOf(ticks[..n]))
  }

  /** A quiet first tick followed by a quiet run of `n` ticks is a quiet run of `n + 1`. */
  lemma QuietRunStep(s: BlinkState, height: int, ticks: seq<Tick>, n: nat, st: BlinkState)
    requires n < |ticks| && ticks[0].key.Quiet?
    requires QuietRun(Sample(s, height, ticks[0].poll).1, height, ticks[1..], n, st)
    ensures QuietRun(s, height, ticks, n + 1, st)
  {
    AfterFirstTick(s, height, ticks, n);
    forall j | 0 <= j < n + 1
      ensures ticks[j].key.Quiet?
    {
      if j > 0 {
        assert ticks[j] == ticks[1..][j - 1];
      }
    }
  }

  /** One iteration of the loop either ends it or hands on a new blink state and accumulator. */
  datatype FixStep = Continue(state: BlinkState, acc: seq<Point>) | Stop(outcome: FixOutcome)

  /**
    One iteration of `fix_triggered_drift_correction`'s loop: `q` ends it
    with False and Escape with `response_error`, before any sample; otherwise
    one sample goes through the accumulator. The loop ends with True exactly
    when that makes the accumulator acceptable; otherwise the next iteration
    gets the carried accumulator.
   */
  function FixIteration(cfg: FixConfig, height: int, s: BlinkState, acc: seq<Point>, t: Tick): (r: FixStep)
    requires |acc| < cfg.minSamples
    requires Chained(acc, cfg.resetThreshold)
    ensures t.key.Listed? <==> r == Stop(Cancelled(1, s))
    ensures t.key.Escape? <==> r == Stop(Aborted(1, s))
    ensures t.key.Quiet? ==>
      var (p, s') := Sample(s, height, t.poll);
      var acc' := Accumulate(acc, p, cfg.resetThreshold);
      && (r.Stop? <==> Acceptable(cfg, acc'))
      && (r.Stop? ==> r.outcome == Accepted(1, acc', s'))
      && (r.Continue? ==> r == Continue(s', Carry(cfg, acc, p)))
    ensures r.Continue? ==> |r.acc| < cfg.minSamples && Chained(r.acc, cfg.resetThreshold)
  {
    if t.key.Listed? then Stop(Cancelled(1, s))
    else if t.key.Escape? then Stop(Aborted(1, s))
    else
      var (p, s') := Sample(s, height, t.poll);
      var acc' := Accumulate(acc, p, cfg.resetThreshold);
      if |acc'| == cfg.minSamples then
        if Closer(Mean(acc'), cfg.target, cfg.maxDev) then Stop(Accepted(1, acc', s'))
        else Continue(s', [])
      else Continue(s', acc')
  }

  /**
    The `while len(lx) < min_samples` loop of the dummy's
    `fix_triggered_drift_correction`, from accumulator `acc` and blink state
    `s`. It returns False only for `q` and raises only for Escape, each at
    the first key; True only for a full accumulator whose mean lies closer
    than `maxDev` to the target; `FixLoopFeeds` says which samples those are.
   */
  function FixLoop(cfg: FixConfig, height: int, s: BlinkState, acc: seq<Point>, ticks: seq<Tick>): (r: FixOutcome)
    requires |acc| < cfg.minSamples
    requires Chained(acc, cfg.resetThreshold)
    ensures !r.NoneReturned?
    ensures r.Accepted? ==> 1 <= r.used && QuietRun(s, height, ticks, r.used, r.state) && Acceptable(cfg, r.samples)
    ensures r.Cancelled? ==>
      1 <= r.used <= |ticks| && ticks[r.used - 1].key.Listed? && QuietRun(s, height, ticks, r.used - 1, r.state)
    ensures r.Aborted? ==>
      1 <= r.used <= |ticks| && ticks[r.used - 1].key.Escape? && QuietRun(s, height, ticks, r.used - 1, r.state)
    ensures r.Polling? ==> KeyFree(ticks, |ticks|)
    decreases |ticks|
  {
    if ticks == [] then Polling
    else
      match FixIteration(cfg, height, s, acc, ticks[0])
      case Stop(outcome) =>
        assert ticks[..0] == [];
        if outcome.Accepted? then
          QuietRunStep(s, height, ticks, 0, outcome.state);
          outcome
        else outcome
      case Continue(s', acc') =>
        match FixLoop(cfg, height, s', acc', ticks[1..])
        case Accepted(u, samples, st) =>
          QuietRunStep(s, height, ticks, u, st);
          Accepted(u + 1, samples, st)
        case Cancelled(u, st) =>
          QuietRunStep(s, height, ticks, u - 1, st);
          Cancelled(u + 1, st)
        case Aborted(u, st) =>
          QuietRunStep(s, height, ticks, u - 1, st);
          Aborted(u + 1, st)
        case NoneReturned => NoneReturned
        case Polling =>
          assert ticks[1..] == ticks[1..][..|ticks| - 1];
          QuietRunStep(s, height, ticks, |ticks| - 1, After(s, height, PollsOf(ticks)));
          Polling
  }

  /**
    What an outcome says about the accumulator, folded from `acc` over the
    gaze positions of the ticks taken: True comes with the accumulator held at
    the last turn, and no earlier turn held an acceptable one; after a key, or
    at the end of the ticks, no turn held an acceptable accumulator.
   */
  predicate Explains(cfg: FixConfig, s: BlinkState, height: int, acc: seq<Point>, ticks: seq<Tick>, r: FixOutcome)
  {
    match r
    case Accepted(u, samples, _) =>
      && 1 <= u <= |ticks|
      && samples == Held(cfg, acc, Gaze(s, height, ticks, u), u - 1)
      && NoneAccepted(cfg, acc, Gaze(s, height, ticks, u), u - 1)
    case Cancelled(u, _) => 1 <= u <= |ticks| && NoneAccepted(cfg, acc, Gaze(s, height, ticks, u - 1), u - 1)
    case Aborted(u, _) => 1 <= u <= |ticks| && NoneAccepted(cfg, acc, Gaze(s, height, ticks, u - 1), u - 1)
    case NoneReturned => false
    case Polling => NoneAccepted(cfg, acc, Gaze(s, height, ticks, |ticks|), |ticks|)
  }

  /** The same outcome, one tick later. */
  function Later(r: FixOutcome): FixOutcome
  {
    match r
    case Accepted(u, samples, st) => Accepted(u + 1, samples, st)
    case Cancelled(u, st) => Cancelled(u + 1, st)
    case Aborted(u, st) => Aborted(u + 1, st)
    case NoneReturned => NoneReturned
    case Polling => Polling
  }

  /**
    A first turn that samples `p` without accepting, followed by `n` turns
    from the carried accumulator none of which accepts, makes `n + 1` turns
    none of which accepts; `m` is the number of ticks whose gaze is read.
   */
  lemma NoneAcceptedLater(cfg: FixConfig, s: BlinkState, height: int, acc: seq<Point>, ticks: seq<Tick>,
    p: Point, s': BlinkState, m: nat, n: nat)
    requires n <= m < |ticks| && (p, s') == Sample(s, height, ticks[0].poll)
    requires !Acceptable(cfg, Accumulate(acc, p, cfg.resetThreshold))
    requires NoneAccepted(cfg, Carry(cfg, acc, p), Gaze(s', height, ticks[1..], m), n)
    ensures NoneAccepted(cfg, acc, Gaze(s, height, ticks, m + 1), n + 1)
  {
    GazeFirstTick(s, height, ticks, m);
    NoneAcceptedStep(cfg, acc, p, Gaze(s', height, ticks[1..], m), n);
  }

  /**
    A first turn that samples `p` without accepting, followed by turns from
    the carried accumulator that accept at the `u`-th, accepts at the
    `u + 1`-th with the same accumulator.
   */
  lemma AcceptedLater(cfg: FixConfig, s: BlinkState, height: int, acc: seq<Point>, ticks: seq<Tick>,
    p: Point, s': BlinkState, u: nat, samples: seq<Point>, st: BlinkState)
    requires 1 <= u < |ticks| && (p, s') == Sample(s, height, ticks[0].poll)
    requires !Acceptable(cfg, Accumulate(acc, p, cfg.resetThreshold))
    requires Explains(cfg, s', height, Carry(cfg, acc, p), ticks[1..], Accepted(u, samples, st))
    ensures Explains(cfg, s, height, acc, ticks, Accepted(u + 1, samples, st))
  {
    NoneAcceptedLater(cfg, s, height, acc, ticks, p, s', u, u - 1);
    GazeFirstTick(s, height, ticks, u);
    HeldShift(cfg, acc, p, Gaze(s', height, ticks[1..], u), u - 1);
  }

  /** A run that outcome `r` explains, after a first turn that does not accept, is explained by `r` one tick later. */
  lemma ExplainsLater(cfg: FixConfig, s: BlinkState, height: int, acc: seq<Point>, ticks: seq<Tick>,
    p: Point, s': BlinkState, r: FixOutcome)
    requires |ticks| > 0 && (p, s') == Sample(s, height, ticks[0].poll)
    requires !Acceptable(cfg, Accumulate(acc, p, cfg.resetThreshold))
    requires Explains(cfg, s', height, Carry(cfg, acc, p), ticks[1..], r)
    ensures Explains(cfg, s, height, acc, ticks, Later(r))
  {
    match r
    case Accepted(u, samples, st) =>
      AcceptedLater(cfg, s, height, acc, ticks, p, s', u, samples, st);
    case Cancelled(u, _) =>
      KeyLater(cfg, s, height, acc, ticks, p, s', u);
    case Aborted(u, _) =>
      KeyLater(cfg, s, height, acc, ticks, p, s', u);
    case Polling =>
      NoneAcceptedLater(cfg, s, height, acc, ticks, p, s', |ticks| - 1, |ticks| - 1);
  }

  /** `ExplainsLater` for an outcome that a key decided after `u - 1` quiet turns. */
  lemma KeyLater(cfg: FixConfig, s: BlinkState, height: int, acc: seq<Point>, ticks: seq<Tick>,
    p: Point, s': BlinkState, u: nat)
    requires 1 <= u < |ticks| && (p, s') == Sample(s, height, ticks[0].poll)
    requires !Acceptable(cfg, Accumulate(acc, p, cfg.resetThreshold))
    requires NoneAccepted(cfg, Carry(cfg, acc, p), Gaze(s', height, ticks[1..], u - 1), u - 1)
    ensures NoneAccepted(cfg, acc, Gaze(s, height, ticks, u), u)
  {
    NoneAcceptedLater(cfg, s, height, acc, ticks, p, s', u - 1, u - 1);
  }

  /** Every outcome of the loop is explained by the fold of `Accumulate` over the gaze positions it took. */
  lemma {:induction false} FixLoopFeeds(cfg: FixConfig, height: int, s: BlinkState, acc: seq<Point>, ticks: seq<Tick>)
    requires |acc| < cfg.minSamples
    requires Chained(acc, cfg.resetThreshold)
    ensures Explains(cfg, s, height, acc, ticks, FixLoop(cfg, height, s, acc, ticks))
    decreases |ticks|
  {
    if ticks != [] {
      var step := FixIteration(cfg, height, s, acc, ticks[0]);
      if step.Stop? {
        if step.outcome.Accepted? {
          var p := Sample(s, height, ticks[0].poll).0;
          GazeFirstTick(s, height, ticks, 0);
          assert Gaze(s, height, ticks, 1) == [p];
          assert [p][..0] == [];
        }
      } else {
        var r' := FixLoop(cfg, height, step.state, step.acc, ticks[1..]);
        FixLoopFeeds(cfg, height, step.state, step.acc, ticks[1..]);
        ExplainsLater(cfg, s, height, acc, ticks, Sample(s, height, ticks[0].poll).0, step.state, r');
        assert FixLoop(cfg, height, s, acc, ticks) == Later(r');
      }
    }
  }

  /**
    A key at the `u`-th tick ended the loop: the ticks before it were quiet,
    none of their turns held an acceptable accumulator, and `st` is the blink
    state of their samples.
   */
  predicate KeyEnded(cfg: FixConfig, s: BlinkState, height: int, ticks: seq<Tick>, u: nat, st: BlinkState)
  {
    && 1 <= u <= |ticks|
    && KeyFree(ticks, u - 1)
    && NoneAccepted(cfg, [], Gaze(s, height, ticks, u - 1), u - 1)
    && st == After(s, height, PollsOf(ticks[..u - 1]))
  }

  /**
    The `u`-th tick ended the loop with True: all `u` ticks were quiet, the
    accumulator held at the last turn was acceptable, no earlier turn's was,
    and `st` is the blink state of the samples taken.
   */
  predicate AcceptedAt(cfg: FixConfig, s: BlinkState, height: int, ticks: seq<Tick>, u: nat, st: BlinkState)
  {
    && 1 <= u
    && KeyFree(ticks, u)
    && Acceptable(cfg, Held(cfg, [], Gaze(s, height, ticks, u), u - 1))
    && NoneAccepted(cfg, [], Gaze(s, height, ticks, u), u - 1)
    && st == After(s, height, PollsOf(ticks[..u]))
  }

  /**
    `fix_triggered_drift_correction` after the target has been chosen: with
    `min_samples <= 0` the loop never runs and the function falls off its
    end, returning None. Otherwise True comes at the first turn whose
    accumulator, folded from an empty one over the gaze positions taken, is
    acceptable, and a key or the end of the ticks comes before any such turn.
   */
  function FixTriggered(cfg: FixConfig, height: int, s: BlinkState, ticks: seq<Tick>): (r: FixOutcome)
    ensures r.NoneReturned? <==> cfg.minSamples <= 0
    ensures r.Accepted? ==>
      && AcceptedAt(cfg, s, height, ticks, r.used, r.state)
      && r.samples == Held(cfg, [], Gaze(s, height, ticks, r.used), r.used - 1)
    ensures r.Cancelled? ==> KeyEnded(cfg, s, height, ticks, r.used, r.state) && ticks[r.used - 1].key.Listed?
    ensures r.Aborted? ==> KeyEnded(cfg, s, height, ticks, r.used, r.state) && ticks[r.used - 1].key.Escape?
    ensures r.Polling? ==> KeyFree(ticks, |ticks|) && NoneAccepted(cfg, [], Gaze(s, height, ticks, |ticks|), |ticks|)
  {
    if cfg.minSamples <= 0 then NoneReturned
    else
      FixLoopFeeds(cfg, height, s, [], ticks);
      FixLoop(cfg, height, s, [], ticks)
  }

  /**
    Without blink emulation, a pointer held perfectly still never completes a
    fixation-triggered drift correction that needs two or more samples: every
    repeat of the accepted sample is ignored, so the accumulator never grows
    past one sample. With emulation a press moves the gaze to the bottom edge,
    so the samples are no longer repeats.
   */
  lemma {:induction false} StillPointerNeverAccepted(
    cfg: FixConfig, height: int, s: BlinkState, acc: seq<Point>, ticks: seq<Tick>, p: Point)
    requires !s.enabled && 2 <= cfg.minSamples
    requires acc == [] || acc == [p]
    requires forall j :: 0 <= j < |ticks| ==> ticks[j].poll.pointer == p
    ensures !FixLoop(cfg, height, s, acc, ticks).Accepted?
    decreases |ticks|
  {
    if ticks != [] && ticks[0].key.Quiet? {
      assert Sample(s, height, ticks[0].poll) == (p, s);
      assert Accumulate(acc, p, cfg.resetThreshold) == [p];
      assert FixIteration(cfg, height, s, acc, ticks[0]) == Continue(s, [p]);
      StillPointerNeverAccepted(cfg, height, s, [p], ticks[1..], p);
    }
  }

  /** The outcome of manual drift correction. */
  datatype ManualOutcome =
    | Decided(used: nat, success: bool, state: BlinkState)  // space: returned the answer
    | Escaped(used: nat)                                    // Escape: `response_error` propagated
    | NoKey                                                 // the script ran out first

  /**
    The manual loop of the dummy's `drift_correction`: poll the keyboard
    until space is pressed, then take one sample; the result is whether that
    sample lies closer than `ErrDist` to the target. Escape raises before any
    sample. No sample is taken before the key, so the blink state changes
    only at space.
   */
  function ManualLoop(target: Point, height: int, s: BlinkState, ticks: seq<Tick>): (r: ManualOutcome)
    ensures r.Decided? || r.Escaped? ==>
      && 1 <= r.used <= |ticks|
      && KeyFree(ticks, r.used - 1)
    ensures r.Decided? ==> ticks[r.used - 1].key.Listed?
    ensures r.Escaped? ==> ticks[r.used - 1].key.Escape?
    ensures r.Decided? ==>
      && (r.success <==> Closer(Sample(s, height, ticks[r.used - 1].poll).0, target, ErrDist))
      && r.state == Sample(s, height, ticks[r.used - 1].poll).1
    ensures r.NoKey? ==> KeyFree(ticks, |ticks|)
  {
    if ticks == [] then NoKey
    else if ticks[0].key.Listed? then
      var (gaze, s') := Sample(s, height, ticks[0].poll);
      Decided(1, Closer(gaze, target, ErrDist), s')
    else if ticks[0].key.Escape? then Escaped(1)
    else match ManualLoop(target, height, s, ticks[1..])
      case NoKey => NoKey
      case Escaped(u) => Escaped(u + 1)
      case Decided(u, ok, st) => Decided(u + 1, ok, st)
  }
}

=== FILE: dummy.dfy ===
/**
  The dummy tracker, `libeyelink_dummy`: gaze is the mouse, a right-button
  press is a blink, and eye-movement events are detected from the simulated
  samples. Its constructor, its event dispatch and its drift correction.
 */
module Dummy {
  import opened Results
  import opened Geometry
  import opened Blink
  import Motion
  import Drift

  /**
    What the constructor finds on the mouse back-end. Blink emulation needs
    both methods it looks up: `get_pressed` and one spelled `set_poesje`.
   */
  datatype MouseBackend = MouseBackend(hasGetPressed: bool, hasSetPoesje: bool)

  /** The dummy's state: the display size, the blink emulation, and the recording flag. */
  datatype DummyTracker = DummyTracker(width: int, height: int, blink: BlinkState, recording: bool)

  /**
    `libeyelink_dummy.__init__`: not recording, eyes open, the pre-blink
    position at the screen centre, and blink emulation only when the mouse
    back-end offers both methods.
   */
  function NewDummy(width: int, height: int, mouse: MouseBackend): (d: DummyTracker)
    ensures d.width == width && d.height == height && !d.recording
    ensures d.blink.enabled <==> mouse.hasGetPressed && mouse.hasSetPoesje
    ensures !d.blink.blinking && d.blink.bbpos == Center(width, height)
  {
    DummyTracker(width, height, BlinkState(mouse.hasGetPressed && mouse.hasSetPoesje, false, Point(width / 2, height / 2)), false)
  }

  /** The raw mouse positions of a run of polls. */
  function Pointers(polls: seq<Poll>): (ps: seq<Point>)
    ensures |ps| == |polls|
    ensures forall i :: 0 <= i < |polls| ==> ps[i] == polls[i].pointer
  {
    if polls == [] then [] else [polls[0].pointer] + Pointers(polls[1..])
  }

  /** Without blink emulation the simulated gaze is exactly the mouse. */
  lemma DisabledSamplesArePointers(s: BlinkState, height: int, polls: seq<Poll>)
    requires !s.enabled
    ensures Positions(s, height, polls) == Pointers(polls)
    ensures After(s, height, polls) == s
  {
    DisabledIsPointer(s, height, polls);
  }

  /**
    A back-end without a method called `set_poesje` never gets blink
    emulation, so a fresh dummy's gaze is the mouse whatever the buttons do.
   */
  lemma NoPoesjeMeansRawMouse(width: int, height: int, mouse: MouseBackend, polls: seq<Poll>)
    requires !mouse.hasSetPoesje
    ensures Positions(NewDummy(width, height, mouse).blink, height, polls) == Pointers(polls)
  {
    DisabledSamplesArePointers(NewDummy(width, height, mouse).blink, height, polls);
  }

  /** The event codes `wait_for_event` knows. */
  const StartBlink := 3
  const EndBlink := 4
  const StartSacc := 5
  const EndSacc := 6
  const StartFix := 7
  const EndFix := 8

  /** `r` is the number of samples the wait `w` took, or `None` when `w` is still pending. */
  predicate UsedBy<T>(r: Option<nat>, w: Motion.Wait<T>)
  {
    (r.Some? <==> w.Found?) && (r.Some? ==> r.value == w.used)
  }

  /**
    How many samples the motion wait for a saccade or fixation event takes on
    the simulated gaze `ps`, or `None` when `ps` runs out first.
   */
  function MotionUsed(event: int, ps: seq<Point>): (r: Option<nat>)
    requires StartSacc <= event <= EndFix
    ensures r.Some? ==> 1 <= r.value <= |ps|
    ensures event == StartSacc ==> UsedBy(r, Motion.WaitForSaccadeStart(ps))
    ensures event == EndSacc ==> UsedBy(r, Motion.WaitForSaccadeEnd(ps))
    ensures event == StartFix ==> UsedBy(r, Motion.WaitForFixationStart(ps))
    ensures event == EndFix ==> UsedBy(r, Motion.WaitForFixationEnd(ps))
  {
    if event == StartSacc then
      var w := Motion.WaitForSaccadeStart(ps);
      if w.Found? then Some(w.used) else None
    else if event == EndSacc then
      var w := Motion.WaitForSaccadeEnd(ps);
      if w.Found? then Some(w.used) else None
    else if event == StartFix then
      var w := Motion.WaitForFixationStart(ps);
      if w.Found? then Some(w.used) else None
    else
      var w := Motion.WaitForFixationEnd(ps);
      if w.Found? then Some(w.used) else None
  }

  /** The outcome of `wait_for_event`. */
  datatype EventOutcome =
    | Event(used: nat, tracker: DummyTracker)  // returned after `used` samples
    | Fault(error: Error)                     // the wait raised
    | Unfinished                              // the polls ran out first

  /** `r` ends where the blink wait `w` ends, with the blink state it leaves, and raises what it raises. */
  predicate EndsWith(r: EventOutcome, d: DummyTracker, w: BlinkWait)
  {
    && (r.Event? <==> w.Returned?)
    && (r.Fault? <==> w.Raised?)
    && (r.Event? ==> r.used == w.used && r.tracker == d.(blink := w.state))
    && (r.Fault? ==> r.error == w.error)
  }

  /**
    `wait_for_event` on the dummy: dispatch to the wait for the given event
    and return once it ends; an unknown code returns at once. Every sample the
    wait takes goes through the blink emulation, which is all that changes.
   */
  function WaitForEvent(d: DummyTracker, event: int, polls: seq<Poll>): (r: EventOutcome)
    ensures !(StartBlink <= event <= EndFix) ==> r == Event(0, d)
    ensures r.Event? ==>
      && r.used <= |polls|
      && r.tracker == d.(blink := After(d.blink, d.height, polls[..r.used]))
    ensures r.Fault? <==> event == StartBlink && d.blink.enabled && d.blink.blinking
    ensures r.Fault? ==> r.error == PositionUnbound
    ensures (event == StartBlink || event == EndBlink) && !d.blink.enabled ==> r == Event(0, d)
    ensures event == StartBlink ==> EndsWith(r, d, WaitForBlinkStart(d.blink, d.height, polls))
    ensures event == EndBlink ==> EndsWith(r, d, WaitForBlinkEnd(d.blink, d.height, polls))
    ensures event == StartBlink && d.blink.enabled && r.Event? ==> r.tracker.blink.blinking
    ensures event == EndBlink && r.Event? ==> !r.tracker.blink.blinking || !d.blink.enabled
    ensures StartSacc <= event <= EndFix ==>
      var m := MotionUsed(event, Positions(d.blink, d.height, polls));
      (r.Event? <==> m.Some?) && (r.Event? ==> r.used == m.value)
  {
    if StartSacc <= event <= EndFix then
      match MotionUsed(event, Positions(d.blink, d.height, polls))
      case None => Unfinished
      case Some(u) => Event(u, d.(blink := After(d.blink, d.height, polls[..u])))
    else if event == StartBlink then
      match WaitForBlinkStart(d.blink, d.height, polls)
      case Returned(u, _, st) => Event(u, d.(blink := st))
      case Raised(e) => Fault(e)
      case Waiting => Unfinished
    else if event == EndBlink then
      match WaitForBlinkEnd(d.blink, d.height, polls)
      case Returned(u, _, st) => Event(u, d.(blink := st))
      case Raised(e) => Fault(e)
      case Waiting => Unfinished
    else Event(0, d)
  }

  /**
    Without blink emulation, a saccade or fixation wait sees the raw mouse and
    leaves the dummy as it was.
   */
  lemma DisabledMotionFollowsMouse(d: DummyTracker, event: int, polls: seq<Poll>)
    requires !d.blink.enabled && StartSacc <= event <= EndFix
    ensures var r := WaitForEvent(d, event, polls);
      var m := MotionUsed(event, Pointers(polls));
      && (r.Event? <==> m.Some?)
      && (r.Event? ==> r == Event(m.value, d))
  {
    DisabledSamplesArePointers(d.blink, d.height, polls);
    var r := WaitForEvent(d, event, polls);
    if r.Event? {
      DisabledSamplesArePointers(d.blink, d.height, polls[..r.used]);
    }
  }

  /** A mouse held still for five polls starts a fixation at the fifth. */
  lemma StillMouseStartsFixation(d: DummyTracker, polls: seq<Poll>, p: Point)
    requires !d.blink.enabled
    requires |polls| >= Motion.WindowSize
    requires forall j :: 0 <= j < Motion.WindowSize ==> polls[j].pointer == p
    ensures WaitForEvent(d, StartFix, polls) == Event(Motion.WindowSize, d)
  {
    var ps := Pointers(polls);
    assert Motion.Stable(ps[..Motion.WindowSize]) by {
      forall i, j | 0 <= i < Motion.WindowSize && 0 <= j < Motion.WindowSize
        ensures Motion.Near(ps[..Motion.WindowSize][i], ps[..Motion.WindowSize][j])
      {
        assert ps[i] == p && ps[j] == p;
      }
    }
    Motion.StillHeadIsFixation(ps);
    DisabledMotionFollowsMouse(d, StartFix, polls);
  }

  /**
    With blink emulation and the eyes open, a press at `p`, any number of
    held polls and a release make event 4 return at the release, with the
    eyes open again and `p` remembered as the pre-blink position.
   */
  lemma BlinkEndEventAtRelease(d: DummyTracker, p: Point, held: seq<Poll>, q: Point, tail: seq<Poll>)
    requires d.blink.enabled && !d.blink.blinking
    requires forall i :: 0 <= i < |held| ==> held[i].pressed
    ensures WaitForEvent(d, EndBlink, [Poll(true, p)] + held + [Poll(false, q)] + tail) ==
      Event(|held| + 2, d.(blink := d.blink.(bbpos := p)))
  {
    BlinkEndAtRelease(d.blink, d.height, p, held, q, tail);
  }

  /** The outcome of a drift correction. */
  datatype Correction =
    | Answered(used: nat, success: bool, tracker: DummyTracker)
    | Thrown(used: nat, error: Error, tracker: DummyTracker)  // Escape: `response_error` propagated
    | Unanswered  // the script ran out, or the loop never ran and None came back

  /** The target of a drift correction: `pos`, or the screen centre by integer halving. */
  function Target(d: DummyTracker, pos: Option<Point>): (t: Point)
    ensures pos.None? ==> d.width - 1 <= 2 * t.x <= d.width && d.height - 1 <= 2 * t.y <= d.height
    ensures pos.Some? ==> t == pos.value
  {
    pos.GetOr(Center(d.width, d.height))
  }

  /** The configuration `drift_correction` hands to `fix_triggered_drift_correction`: its defaults. */
  function DefaultFixConfig(target: Point): Drift.FixConfig
  {
    Drift.FixConfig(target, Drift.DefaultMinSamples, Drift.DefaultMaxDev, Drift.DefaultResetThreshold)
  }

  /**
    `libeyelink_dummy.fix_triggered_drift_correction` with its default
    parameters, as `drift_correction` calls it. It succeeds at the first turn
    whose accumulator, folded over the gaze positions taken, is acceptable;
    `q` cancels it and clears the recording flag; Escape raises. Either key
    ends it before any turn has held an acceptable accumulator.
   */
  function FixTriggeredCorrection(d: DummyTracker, pos: Option<Point>, ticks: seq<Drift.Tick>): (r: Correction)
    ensures r.Answered? || r.Thrown? ==> 1 <= r.used <= |ticks| && Drift.KeyFree(ticks, r.used - 1)
    ensures r.Answered? && r.success ==>
      && Drift.AcceptedAt(DefaultFixConfig(Target(d, pos)), d.blink, d.height, ticks, r.used, r.tracker.blink)
      && r.tracker == d.(blink := r.tracker.blink)
    ensures r.Answered? && !r.success ==>
      && Drift.KeyEnded(DefaultFixConfig(Target(d, pos)), d.blink, d.height, ticks, r.used, r.tracker.blink)
      && ticks[r.used - 1].key.Listed?
      && r.tracker == d.(blink := r.tracker.blink, recording := false)
    ensures r.Thrown? ==>
      && Drift.KeyEnded(DefaultFixConfig(Target(d, pos)), d.blink, d.height, ticks, r.used, r.tracker.blink)
      && ticks[r.used - 1].key.Escape?
      && r.error == EscapePressed
      && r.tracker == d.(blink := r.tracker.blink)
    ensures r.Unanswered? ==>
      var cfg := DefaultFixConfig(Target(d, pos));
      Drift.KeyFree(ticks, |ticks|) && Drift.NoneAccepted(cfg, [], Drift.Gaze(d.blink, d.height, ticks, |ticks|), |ticks|)
  {
    match Drift.FixTriggered(DefaultFixConfig(Target(d, pos)), d.height, d.blink, ticks)
    case Accepted(u, _, st) => Answered(u, true, d.(blink := st))
    case Cancelled(u, st) => Answered(u, false, d.(blink := st, recording := false))
    case Aborted(u, st) => Thrown(u, EscapePressed, d.(blink := st))
    case NoneReturned => Unanswered
    case Polling => Unanswered
  }

  /**
    The manual branch of `libeyelink_dummy.drift_correction`: the answer comes
    at the first space and is whether the one sample taken then lies closer
    than 60 pixels to the target; Escape raises before any sample.
   */
  function ManualCorrection(d: DummyTracker, pos: Option<Point>, ticks: seq<Drift.Tick>): (r: Correction)
    ensures r.Answered? || r.Thrown? ==> 1 <= r.used <= |ticks| && Drift.KeyFree(ticks, r.used - 1)
    ensures r.Answered? ==>
      && ticks[r.used - 1].key.Listed?
      && var (gaze, s') := Sample(d.blink, d.height, ticks[r.used - 1].poll);
      && (r.success <==> Closer(gaze, Target(d, pos), Drift.ErrDist))
      && r.tracker == d.(blink := s')
    ensures r.Thrown? ==> ticks[r.used - 1].key.Escape? && r.error == EscapePressed && r.tracker == d
    ensures r.Unanswered? ==> Drift.KeyFree(ticks, |ticks|)
  {
    match Drift.ManualLoop(Target(d, pos), d.height, d.blink, ticks)
    case Decided(u, ok, st) => Answered(u, ok, d.(blink := st))
    case Escaped(u) => Thrown(u, EscapePressed, d)
    case NoKey => Unanswered
  }

  /** `libeyelink_dummy.drift_correction`: the fixation-triggered or the manual procedure. */
  function DriftCorrection(d: DummyTracker, pos: Option<Point>, fixTriggered: bool, ticks: seq<Drift.Tick>): (r: Correction)
    ensures fixTriggered ==> r == FixTriggeredCorrection(d, pos, ticks)
    ensures !fixTriggered ==> r == ManualCorrection(d, pos, ticks)
    ensures r.Answered? || r.Thrown? ==> 1 <= r.used <= |ticks| && Drift.KeyFree(ticks, r.used - 1)
    ensures r.Thrown? <==> (r.Answered? || r.Thrown?) && ticks[r.used - 1].key.Escape?
    ensures r.Thrown? ==> r.error == EscapePressed
    ensures fixTriggered && r.Answered? ==>
      r.tracker.blink == After(d.blink, d.height, Drift.PollsOf(ticks[..if r.success then r.used else r.used - 1]))
    ensures !fixTriggered && r.Answered? ==> r.tracker.blink == Sample(d.blink, d.height, ticks[r.used - 1].poll).1
    ensures r.Answered? ==> r.tracker.recording == (d.recording && (r.success || !fixTriggered))
  {
    if fixTriggered then FixTriggeredCorrection(d, pos, ticks) else ManualCorrection(d, pos, ticks)
  }

  /**
    A mouse held perfectly still never succeeds a fixation-triggered drift
    correction on the dummy without blink emulation: repeats are ignored, so
    the accumulator never fills.
   */
  lemma StillMouseNeverCorrects(d: DummyTracker, pos: Option<Point>, ticks: seq<Drift.Tick>, p: Point)
    requires !d.blink.enabled
    requires forall j :: 0 <= j < |ticks| ==> ticks[j].poll.pointer == p
    ensures var r := DriftCorrection(d, pos, true, ticks); !(r.Answered? && r.success)
  {
    Drift.StillPointerNeverAccepted(DefaultFixConfig(Target(d, pos)), d.height, d.blink, [], ticks, p);
  }
}

=== FILE: eyelink.dfy ===
/**
  The pure parts of the real-tracker wrapper `libeyelink`: the data-file-name
  check at the start of its constructor, the stripping of log messages to
  ASCII, and the choice of the eye to read samples from.
 */
module Eyelink {
  import opened Results
  import opened Text
  import opened Paths

  /** The tracker stores data files under names of at most 8 characters ... */
  const MaxStemLength := 8
  /** ... plus an extension of at most 4 characters, dot included. */
  const MaxExtLength := 4

  /**
    The constructor's first step: split the data-file name and raise before
    touching the tracker when either part is too long; otherwise go on with
    the name unchanged.
   */
  function CheckDataFile(dataFile: string): (r: Result<string>)
    ensures r.Err? ==> r.error == FileNameTooLong
    ensures r.Ok? ==> r.value == dataFile
    ensures r.Err? <==>
      |SplitExt(dataFile).0| > MaxStemLength || |SplitExt(dataFile).1| > MaxExtLength
  {
    var (stem, ext) := SplitExt(dataFile);
    if |stem| > MaxStemLength || |ext| > MaxExtLength then Err(FileNameTooLong) else Ok(dataFile)
  }

  /** The message `log` hands to the tracker: the ASCII characters of `msg`. */
  function Log(msg: string): (r: string)
    ensures forall i :: 0 <= i < |r| ==> IsAscii(r[i])
    ensures (forall i :: 0 <= i < |msg| ==> IsAscii(msg[i])) <==> r == msg
  {
    FilterKeepsAllIff(msg, IsAscii);
    Filter(msg, IsAscii)
  }

  /**
    `Log` keeps an ASCII character, drops any other, and works character by
    character: together these fix its result for every message.
   */
  lemma LogCharacterwise(a: string, b: string, c: char)
    ensures Log(a + b) == Log(a) + Log(b)
    ensures Log([c]) == (if IsAscii(c) then [c] else [])
  {
    FilterConcat(a, b, IsAscii);
    assert [c][1..] == [];
  }

  /** The eye codes of the tracker's `eyeAvailable()`. */
  const LeftEye := 0
  const RightEye := 1
  const Binocular := 2

  /** What `set_eye_used` settles on: the eye code it stores and the message it logs. */
  datatype EyeChoice = EyeChoice(eyeUsed: int, logged: string)

  /**
    `set_eye_used` given the tracker's report `available`: the right eye is
    used as reported, a binocular recording falls back to the left eye, and
    any other code raises.
   */
  function SetEyeUsed(available: int): (r: Result<EyeChoice>)
    ensures r.Ok? <==> available in {LeftEye, RightEye, Binocular}
    ensures r.Err? ==> r.error == EyeUndetermined
    ensures r.Ok? ==> r.value.eyeUsed in {LeftEye, RightEye}
    ensures r.Ok? ==> (r.value.eyeUsed == RightEye <==> available == RightEye)
  {
    if available == RightEye then Ok(EyeChoice(RightEye, "var eye_used right"))
    else if available == LeftEye || available == Binocular then Ok(EyeChoice(LeftEye, "var eye_used left"))
    else Err(EyeUndetermined)
  }

  /**
    The eye chosen is always one the tracker records, and the logged message
    names it.
   */
  lemma EyeUsedIsRecorded(available: int)
    requires SetEyeUsed(available).Ok?
    ensures var e := SetEyeUsed(available).value;
      (e.eyeUsed == available || available == Binocular)
      && e.logged == "var eye_used " + (if e.eyeUsed == RightEye then "right" else "left")
  {
  }
}

=== FILE: geometry.dfy ===
/**
  Screen coordinates and the distance tests of the dummy tracker. Python's
  `libeyelink_dummy` compares a floating-point Euclidean distance (`** 0.5`)
  against an integer threshold; here the comparison is decided exactly on
  squared distances. With a correctly rounded square root the two agree for
  every distance whenever the threshold is at most 2^26, as 3 and 60 are; a
  larger threshold can disagree just below its own square, even when the
  squared distance is below 2^53.
 */
module Geometry {

  datatype Point = Point(x: int, y: int)

  function Abs(n: int): nat
  {
    if n < 0 then -n else n
  }

  /** The squared Euclidean distance between two points. */
  function SqDist(a: Point, b: Point): nat
  {
    Abs(a.x - b.x) * Abs(a.x - b.x) + Abs(a.y - b.y) * Abs(a.y - b.y)
  }

  /** `sqrt(SqDist(a, b)) < r`: a square root is never negative, so no distance is below r <= 0. */
  predicate Closer(a: Point, b: Point, r: int)
  {
    0 < r && SqDist(a, b) < r * r
  }

  /** `sqrt(SqDist(a, b)) > r`: every distance is above a negative r. */
  predicate Farther(a: Point, b: Point, r: int)
  {
    r < 0 || SqDist(a, b) > r * r
  }

  /**
    The display centre `(width / 2, height / 2)`. Python 2 divides integers
    with floor division, which agrees with Dafny's division for the divisor 2.
   */
  function Center(width: int, height: int): (c: Point)
    ensures width - 1 <= 2 * c.x <= width
    ensures height - 1 <= 2 * c.y <= height
  {
    Point(width / 2, height / 2)
  }
}

=== FILE: motion.dfy ===
/**
  The dummy tracker's motion-stability detector: fixation and saccade
  boundaries found in the stream of simulated gaze samples, with the
  thresholds of `wait_for_saccade_start`, `wait_for_saccade_end`,
  `wait_for_fixation_start` and `wait_for_fixation_end`.
  Each wait here reads a finite script of samples `ps`; `used` counts the
  samples it took, and `Pending` means the script ran out first (`libeyelink_dummy`
  would keep polling).
 */
module Motion {
  import opened Geometry

  /** Largest deviation, in pixels, still counted as standing still. */
  const MaxErr := 3
  /** The number of consecutive samples that must agree before a fixation is declared. */
  const WindowSize := 5

  datatype Wait<T> = Found(used: nat, value: T) | Pending

  function Xs(w: seq<Point>): (xs: seq<int>)
    ensures |xs| == |w| && forall i :: 0 <= i < |w| ==> xs[i] == w[i].x
  {
    seq(|w|, i requires 0 <= i < |w| => w[i].x)
  }

  function Ys(w: seq<Point>): (ys: seq<int>)
    ensures |ys| == |w| && forall i :: 0 <= i < |w| ==> ys[i] == w[i].y
  {
    seq(|w|, i requires 0 <= i < |w| => w[i].y)
  }

  /** Python's `max` of a non-empty list. */
  function Max(xs: seq<int>): (m: int)
    requires |xs| > 0
    ensures m in xs
    ensures forall i :: 0 <= i < |xs| ==> xs[i] <= m
  {
    if |xs| == 1 then xs[0]
    else
      var m := Max(xs[1..]);
      if xs[0] >= m then xs[0] else m
  }

  /** Python's `min` of a non-empty list. */
  function Min(xs: seq<int>): (m: int)
    requires |xs| > 0
    ensures m in xs
    ensures forall i :: 0 <= i < |xs| ==> m <= xs[i]
  {
    if |xs| == 1 then xs[0]
    else
      var m := Min(xs[1..]);
      if xs[0] <= m then xs[0] else m
  }

  /** Two samples lie less than `MaxErr` apart on each axis. */
  predicate Near(a: Point, b: Point)
  {
    Abs(a.x - b.x) < MaxErr && Abs(a.y - b.y) < MaxErr
  }

  /** Every two samples of `w` are near each other. */
  predicate Stable(w: seq<Point>)
  {
    forall i, j {:trigger Near(w[i], w[j])} :: 0 <= i < |w| && 0 <= j < |w| ==> Near(w[i], w[j])
  }

  /** The test of `wait_for_fixation_start`, `max(xl) - min(xl) < maxerr and max(yl) - min(yl) < maxerr`. */
  predicate SpanBelow(w: seq<Point>)
    requires |w| > 0
  {
    Max(Xs(w)) - Min(Xs(w)) < MaxErr && Max(Ys(w)) - Min(Ys(w)) < MaxErr
  }

  /** The values of `xs` lie pairwise closer than `e`. */
  predicate Close(xs: seq<int>, e: int)
  {
    forall i, j :: 0 <= i < |xs| && 0 <= j < |xs| ==> Abs(xs[i] - xs[j]) < e
  }

  /** Max minus min is below `e` exactly when all values lie pairwise closer than `e`. */
  lemma SpreadIffClose(xs: seq<int>, e: int)
    requires |xs| > 0
    ensures Max(xs) - Min(xs) < e <==> Close(xs, e)
  {
    var a :| 0 <= a < |xs| && xs[a] == Max(xs);
    var b :| 0 <= b < |xs| && xs[b] == Min(xs);
    if Close(xs, e) {
      assert Abs(xs[a] - xs[b]) < e;
    }
  }

  /** A window is still exactly when both of its coordinate lists are close. */
  lemma StableIffAxesClose(w: seq<Point>)
    ensures Stable(w) <==> Close(Xs(w), MaxErr) && Close(Ys(w), MaxErr)
  {
    var xs, ys := Xs(w), Ys(w);
    if Close(xs, MaxErr) && Close(ys, MaxErr) {
      forall i, j | 0 <= i < |w| && 0 <= j < |w|
        ensures Near(w[i], w[j])
      {
        assert Abs(xs[i] - xs[j]) < MaxErr && Abs(ys[i] - ys[j]) < MaxErr;
      }
    }
    if Stable(w) {
      forall i, j | 0 <= i < |w| && 0 <= j < |w|
        ensures Abs(xs[i] - xs[j]) < MaxErr && Abs(ys[i] - ys[j]) < MaxErr
      {
        assert Near(w[i], w[j]);
      }
    }
  }

  /** The spread test on max and min is exactly the pairwise definition of a still window. */
  lemma SpanBelowIffStable(w: seq<Point>)
    requires |w| > 0
    ensures SpanBelow(w) <==> Stable(w)
  {
    SpreadIffClose(Xs(w), MaxErr);
    SpreadIffClose(Ys(w), MaxErr);
    StableIffAxesClose(w);
  }

  /**
    One turn of the stability loop: append the sample; with five samples in
    the window test them, then drop the oldest. The window never holds more
    than four samples between turns. The test is written as `Stable`, which
    `SpanBelowIffStable` shows equal to `wait_for_fixation_start`'s max-minus-min test.
   */
  function WindowStep(w: seq<Point>, p: Point): (r: (bool, seq<Point>))
    requires |w| < WindowSize
    ensures r.0 <==> |w| == WindowSize - 1 && Stable(w + [p])
    ensures |w| < WindowSize - 1 ==> r.1 == w + [p]
    ensures |w| == WindowSize - 1 ==> r.1 == (w + [p])[1..]
    ensures |r.1| < WindowSize
  {
    var w' := w + [p];
    if |w'| == WindowSize then (Stable(w'), w'[1..]) else (false, w')
  }

  /** The `WindowSize` samples of `ps` that end just before index `k` are still. */
  predicate StillBefore(ps: seq<Point>, k: int)
  {
    WindowSize <= k <= |ps| && Stable(ps[k - WindowSize..k])
  }

  /** Dropping the first `d` samples shifts every window by `d`. */
  lemma StillBeforeSuffix(ps: seq<Point>, d: nat, k: int)
    requires d <= |ps| && WindowSize <= k
    ensures StillBefore(ps[d..], k) <==> StillBefore(ps, k + d)
  {
    if k <= |ps| - d {
      assert ps[d..][k - WindowSize..k] == ps[k + d - WindowSize..k + d];
    }
  }

  /** The window size the loop has reached after `i` samples. */
  function Filled(i: nat): nat
  {
    if i < WindowSize - 1 then i else WindowSize - 1
  }

  /**
    One turn of the loop on the history `h` at index `i`, with the window
    holding the samples just before `i`: the turn reports stability exactly
    when the five samples ending at `h[i]` are still, and leaves the window
    holding the samples just before `i + 1`.
   */
  lemma WindowStepAt(h: seq<Point>, i: nat, w: seq<Point>)
    requires i < |h| && |w| == Filled(i) && w == h[i - |w|..i]
    ensures WindowStep(w, h[i]).0 <==> StillBefore(h, i + 1)
    ensures var w' := WindowStep(w, h[i]).1; |w'| == Filled(i + 1) && w' == h[i + 1 - |w'|..i + 1]
  {
    assert w + [h[i]] == h[i - |w|..i + 1];
  }

  /**
    The stability loop from index `i` of the history `h`, with the window
    holding the samples just before `i`. It stops at the first still window
    that ends after `i`; `used` counts the samples it read.
   */
  function StableScan(h: seq<Point>, i: nat, w: seq<Point>): (r: Wait<Point>)
    requires i <= |h| && |w| == Filled(i) && w == h[i - |w|..i]
    ensures r.Found? ==>
      && 1 <= r.used <= |h| - i
      && StillBefore(h, i + r.used)
      && r.value == h[i + r.used - 1]
      && forall k :: i < k < i + r.used ==> !StillBefore(h, k)
    ensures r.Pending? ==> forall k :: i < k <= |h| ==> !StillBefore(h, k)
    decreases |h| - i
  {
    if i == |h| then Pending
    else
      var (stable, w') := WindowStep(w, h[i]);
      WindowStepAt(h, i, w);
      if stable then Found(1, h[i])
      else match StableScan(h, i + 1, w')
        case Pending => Pending
        case Found(u, v) => Found(u + 1, v)
  }

  /**
    `wait_for_fixation_start`: the first point where five consecutive samples
    are still; the result is the newest of them.
   */
  function WaitForFixationStart(ps: seq<Point>): (r: Wait<Point>)
    ensures r.Found? ==>
      && WindowSize <= r.used <= |ps|
      && StillBefore(ps, r.used)
      && r.value == ps[r.used - 1]
      && forall k :: 0 <= k < r.used ==> !StillBefore(ps, k)
    ensures r.Pending? ==> forall k :: 0 <= k <= |ps| ==> !StillBefore(ps, k)
  {
    StableScan(ps, 0, [])
  }

  /** Five still samples at the head of the stream end the wait at the fifth. */
  lemma StillHeadIsFixation(ps: seq<Point>)
    requires |ps| >= WindowSize && Stable(ps[..WindowSize])
    ensures WaitForFixationStart(ps) == Found(WindowSize, ps[WindowSize - 1])
  {
    assert ps[WindowSize - WindowSize..WindowSize] == ps[..WindowSize];
    assert StillBefore(ps, WindowSize);
  }

  /**
    The loop shared by `wait_for_saccade_start` and `wait_for_fixation_end`:
    sample until one lies more than `MaxErr` from `origin`. The value is
    `origin` itself, not the sample that moved.
   */
  function LeaveFrom(origin: Point, ps: seq<Point>): (r: Wait<Point>)
    ensures r.Found? ==>
      && 1 <= r.used <= |ps|
      && r.value == origin
      && Farther(origin, ps[r.used - 1], MaxErr)
      && forall j :: 0 <= j < r.used - 1 ==> !Farther(origin, ps[j], MaxErr)
    ensures r.Pending? ==> forall j :: 0 <= j < |ps| ==> !Farther(origin, ps[j], MaxErr)
  {
    if ps == [] then Pending
    else if Farther(origin, ps[0], MaxErr) then Found(1, origin)
    else match LeaveFrom(origin, ps[1..])
      case Pending => Pending
      case Found(u, v) => Found(u + 1, v)
  }

  /**
    `wait_for_saccade_start`: the first sample is the start position; the
    wait ends with the first later sample more than `MaxErr` away from it.
   */
  function WaitForSaccadeStart(ps: seq<Point>): (r: Wait<Point>)
    ensures r.Found? ==>
      && 2 <= r.used <= |ps|
      && r.value == ps[0]
      && Farther(ps[0], ps[r.used - 1], MaxErr)
      && forall j :: 1 <= j < r.used - 1 ==> !Farther(ps[0], ps[j], MaxErr)
    ensures r.Pending? ==> forall j :: 1 <= j < |ps| ==> !Farther(ps[0], ps[j], MaxErr)
  {
    if ps == [] then Pending
    else match LeaveFrom(ps[0], ps[1..])
      case Pending => Pending
      case Found(u, v) => Found(u + 1, v)
  }

  /**
    `wait_for_fixation_end`: wait for a fixation, then for a sample more than
    `MaxErr` away from the fixation's position, which is what it returns.
   */
  function WaitForFixationEnd(ps: seq<Point>): (r: Wait<Point>)
    ensures r.Found? ==>
      var f := WaitForFixationStart(ps);
      && f.Found?
      && f.used < r.used <= |ps|
      && r.value == f.value
      && Farther(f.value, ps[r.used - 1], MaxErr)
      && forall j :: f.used <= j < r.used - 1 ==> !Farther(f.value, ps[j], MaxErr)
    ensures r.Pending? ==>
      var f := WaitForFixationStart(ps);
      f.Pending? || forall j :: f.used <= j < |ps| ==> !Farther(f.value, ps[j], MaxErr)
  {
    match WaitForFixationStart(ps)
    case Pending => Pending
    case Found(u, spos) =>
      var rest := ps[u..];
      assert forall j :: u <= j < |ps| ==> ps[j] == rest[j - u];
      match LeaveFrom(spos, rest)
      case Pending => Pending
      case Found(n, _) => Found(u + n, spos)
  }

  /** The first still window of `ps[d..]`, shifted by `d`, is the first still window of `ps` past `d`. */
  lemma FirstStillAfter(ps: seq<Point>, d: nat, n: nat)
    requires d <= |ps| && WindowSize <= n
    requires StillBefore(ps[d..], n)
    requires forall k :: 0 <= k < n ==> !StillBefore(ps[d..], k)
    ensures StillBefore(ps, d + n)
    ensures forall k :: d + WindowSize <= k < d + n ==> !StillBefore(ps, k)
  {
    StillBeforeSuffix(ps, d, n);
    forall k | d + WindowSize <= k < d + n
      ensures !StillBefore(ps, k)
    {
      StillBeforeSuffix(ps, d, k - d);
    }
  }

  /** A suffix with no still window leaves none past its start in the whole stream. */
  lemma NoStillAfter(ps: seq<Point>, d: nat)
    requires d <= |ps|
    requires forall k :: 0 <= k <= |ps| - d ==> !StillBefore(ps[d..], k)
    ensures forall k :: d + WindowSize <= k <= |ps| ==> !StillBefore(ps, k)
  {
    forall k | d + WindowSize <= k <= |ps|
      ensures !StillBefore(ps, k)
    {
      StillBeforeSuffix(ps, d, k - d);
    }
  }

  /**
    `wait_for_saccade_end`: wait for a saccade to start, then for five still
    samples among the samples that follow; the value is the start position and
    the newest still sample.
   */
  function WaitForSaccadeEnd(ps: seq<Point>): (r: Wait<(Point, Point)>)
    ensures r.Found? ==>
      var s := WaitForSaccadeStart(ps);
      && s.Found?
      && s.used + WindowSize <= r.used <= |ps|
      && r.value.0 == ps[0]
      && r.value.1 == ps[r.used - 1]
      && StillBefore(ps, r.used)
      && forall k :: s.used + WindowSize <= k < r.used ==> !StillBefore(ps, k)
    ensures r.Pending? ==>
      var s := WaitForSaccadeStart(ps);
      s.Pending? || forall k :: s.used + WindowSize <= k <= |ps| ==> !StillBefore(ps, k)
  {
    match WaitForSaccadeStart(ps)
    case Pending => Pending
    case Found(u, spos) =>
      var rest := ps[u..];
      match WaitForFixationStart(rest)
      case Pending =>
        NoStillAfter(ps, u);
        Pending
      case Found(n, epos) =>
        FirstStillAfter(ps, u, n);
        Found(u + n, (spos, epos))
  }
}

=== FILE: palette.dfy ===
/**
  The palette the tracker's camera image is drawn with
  (`eyelink_graphics.set_image_palette`): one 24-bit word per colour.
 */
module Palette {
  import opened Results

  /**
    One palette word as `set_image_palette` packs it: the blue channel in the
    high byte, green in the middle, red in the low byte. Its local names
    are swapped (`rf` holds `b[i]`), but the word is `(b << 16) | (g << 8) | r`.
   */
  function Pack(r: bv8, g: bv8, b: bv8): (w: bv32)
    ensures w < 0x100_0000
  {
    ((b as bv32) << 16) | ((g as bv32) << 8) | (r as bv32)
  }

  /** The red, green and blue channels of a palette word. */
  function Unpack(w: bv32): (bv8, bv8, bv8)
  {
    ((w & 0xFF) as bv8, ((w >> 8) & 0xFF) as bv8, ((w >> 16) & 0xFF) as bv8)
  }

  /** On bytes the shifted channels do not overlap, so the word is also their weighted sum. */
  lemma PackIsSum(r: bv8, g: bv8, b: bv8)
    ensures Pack(r, g, b) == (b as bv32) * 0x1_0000 + (g as bv32) * 0x100 + (r as bv32)
  {
  }

  /** Packing loses nothing: the channels come back from the word. */
  lemma UnpackPack(r: bv8, g: bv8, b: bv8)
    ensures Unpack(Pack(r, g, b)) == (r, g, b)
  {
  }

  /** Packing is injective: distinct colours give distinct words. */
  lemma PackInjective(r: bv8, g: bv8, b: bv8, r': bv8, g': bv8, b': bv8)
    requires Pack(r, g, b) == Pack(r', g', b')
    ensures r == r' && g == g' && b == b'
  {
    UnpackPack(r, g, b);
    UnpackPack(r', g', b');
  }

  /**
    `set_image_palette`: one word per entry of `r`. Entry `i` reads `b[i]`,
    `g[i]` and `r[i]`, so a shorter `g` or `b` raises an `IndexError`.
   */
  function SetImagePalette(r: seq<bv8>, g: seq<bv8>, b: seq<bv8>): (p: Result<seq<bv32>>)
    ensures p.Ok? <==> |g| >= |r| && |b| >= |r|
    ensures p.Err? ==> p.error == PaletteIndex
    ensures p.Ok? ==> |p.value| == |r|
    ensures p.Ok? ==> forall i :: 0 <= i < |r| ==>
      p.value[i] < 0x100_0000 && Unpack(p.value[i]) == (r[i], g[i], b[i])
  {
    if |g| < |r| || |b| < |r| then Err(PaletteIndex)
    else
      var words := seq(|r|, i requires 0 <= i < |r| => Pack(r[i], g[i], b[i]));
      assert forall i :: 0 <= i < |r| ==> Unpack(words[i]) == (r[i], g[i], b[i]) by {
        forall i | 0 <= i < |r| {
          UnpackPack(r[i], g[i], b[i]);
        }
      }
      Ok(words)
  }
}

=== FILE: paths.dfy ===
/**
  The two `os.path` operations the core relies on, with POSIX semantics
  (`/` is the only separator): `basename` and `splitext`.
 */
module Paths {

  /** The index of the last `c` in `s`, or -1 when `s` has none (`str.rfind`). */
  function LastIndex(s: string, c: char): (i: int)
    ensures -1 <= i < |s|
    ensures 0 <= i ==> s[i] == c
    ensures NoneAfter(s, c, i)
  {
    if |s| == 0 then -1
    else if s[|s| - 1] == c then |s| - 1
    else LastIndex(s[..|s| - 1], c)
  }

  /** Everything after the last separator. */
  function Basename(p: string): (r: string)
    ensures '/' !in r
    ensures |r| <= |p| && p[|p| - |r|..] == r
    ensures |r| < |p| ==> p[|p| - |r| - 1] == '/'
  {
    p[LastIndex(p, '/') + 1..]
  }

  /** Every character of `s` after index `i` differs from `c`. */
  predicate NoneAfter(s: string, c: char, i: int)
  {
    forall k :: 0 <= k < |s| && i < k ==> s[k] != c
  }

  /** An extension as `splitext` returns it: empty, or one dot followed by neither a dot nor a separator. */
  predicate IsExtension(e: string)
  {
    e == [] || (e[0] == '.' && '.' !in e[1..] && '/' !in e)
  }

  /** Cutting `p` at its last dot, with no separator after it, leaves an extension of one dot and no separator. */
  lemma CutAtLastDot(p: string, dot: nat)
    requires dot < |p| && p[dot] == '.'
    requires NoneAfter(p, '.', dot) && NoneAfter(p, '/', dot)
    ensures p[..dot] + p[dot..] == p
    ensures IsExtension(p[dot..]) && p[dot..] != []
  {
    assert forall k :: 0 <= k < |p[dot..]| ==> p[dot..][k] == p[dot + k];
  }

  /** `s` consists of dots only (the empty string included). */
  predicate AllDots(s: string)
  {
    s == [] || (s[0] == '.' && AllDots(s[1..]))
  }

  /** `AllDots` holds exactly when every character is a dot. */
  lemma {:induction false} AllDotsIff(s: string)
    ensures AllDots(s) <==> forall k :: 0 <= k < |s| ==> s[k] == '.'
  {
    if s != [] {
      AllDotsIff(s[1..]);
      assert forall k :: 1 <= k < |s| ==> s[k] == s[1..][k - 1];
    }
  }

  /**
    The file-name part of `p`, after its last separator, holds a dot that
    some other character of that part, not itself a dot, precedes.
   */
  predicate HasExtension(p: string)
  {
    exists i, j :: 0 <= i < j < |p| && p[i] != '.' && p[j] == '.' && NoneAfter(p, '/', i - 1)
  }

  /** A split at the last dot has a witness: the non-dot character of the file-name part before it. */
  lemma SplitHasExtension(p: string)
    requires LastIndex(p, '.') > LastIndex(p, '/')
    requires !AllDots(p[LastIndex(p, '/') + 1..LastIndex(p, '.')])
    ensures HasExtension(p)
  {
    var sep := LastIndex(p, '/');
    var dot := LastIndex(p, '.');
    var name := p[sep + 1..dot];
    AllDotsIff(name);
    var k :| 0 <= k < |name| && name[k] != '.';
    var i := sep + 1 + k;
    assert p[i] == name[k];
    assert NoneAfter(p, '/', i - 1);
    assert 0 <= i < dot < |p| && p[i] != '.' && p[dot] == '.';
  }

  /** A witness of `HasExtension` lies between the last separator and the last dot, so the split happens. */
  lemma ExtensionSplits(p: string, i: nat, j: nat)
    requires i < j < |p| && p[i] != '.' && p[j] == '.' && NoneAfter(p, '/', i - 1)
    ensures LastIndex(p, '.') > LastIndex(p, '/')
    ensures !AllDots(p[LastIndex(p, '/') + 1..LastIndex(p, '.')])
  {
    var sep := LastIndex(p, '/');
    var dot := LastIndex(p, '.');
    assert j <= dot;
    assert sep < i;
    var name := p[sep + 1..dot];
    assert name[i - sep - 1] == p[i];
    AllDotsIff(name);
  }

  /** The test `splitext` makes on the last separator and the last dot decides exactly `HasExtension`. */
  lemma SplitsIffHasExtension(p: string)
    ensures var sep := LastIndex(p, '/');
      var dot := LastIndex(p, '.');
      (dot > sep && !AllDots(p[sep + 1..dot])) <==> HasExtension(p)
  {
    var sep := LastIndex(p, '/');
    var dot := LastIndex(p, '.');
    if dot > sep && !AllDots(p[sep + 1..dot]) {
      SplitHasExtension(p);
    }
    if HasExtension(p) {
      var i, j :| 0 <= i < j < |p| && p[i] != '.' && p[j] == '.' && NoneAfter(p, '/', i - 1);
      ExtensionSplits(p, i, j);
    }
  }

  /**
    `os.path.splitext`: the extension runs from the last dot of the file-name
    part to the end, unless that dot only follows leading dots (".profile" has
    no extension).
   */
  function SplitExt(p: string): (r: (string, string))
    ensures r.0 + r.1 == p
    ensures IsExtension(r.1)
    ensures r.1 != [] <==> HasExtension(p)
  {
    var sep := LastIndex(p, '/');
    var dot := LastIndex(p, '.');
    SplitsIffHasExtension(p);
    if dot > sep && !AllDots(p[sep + 1..dot]) then
      CutAtLastDot(p, dot);
      (p[..dot], p[dot..])
    else
      (p, [])
  }

  /**
    The split of a name built as `stem + ".edf"` from a stem with neither dots
    nor separators: the stem and `.edf`, except that `.edf` alone is a stem
    with no extension.
   */
  lemma SplitEdfName(stem: string)
    requires '.' !in stem && '/' !in stem
    ensures stem != [] ==> SplitExt(stem + ".edf") == (stem, ".edf")
    ensures stem == [] ==> SplitExt(stem + ".edf") == (".edf", "")
  {
    var p := stem + ".edf";
    var n := |stem|;
    assert p == (stem + ".") + "edf";
    LastIndexSkipsTail(stem + ".", "edf", '.');
    assert LastIndex(stem + ".", '.') == n;
    LastIndexSkipsTail(stem, ".edf", '/');
    LastIndexAbsent(stem, '/');
    if stem != [] {
      assert p[0..n] == stem;
      assert !AllDots(p[0..n]);
      assert p[..n] == stem;
      assert p[n..] == ".edf";
    } else {
      assert AllDots(p[0..0]);
    }
  }

  /** A character that does not occur has no last index. */
  lemma {:induction false} LastIndexAbsent(s: string, c: char)
    requires c !in s
    ensures LastIndex(s, c) == -1
  {
    if |s| > 0 {
      assert s[..|s| - 1] <= s;
      LastIndexAbsent(s[..|s| - 1], c);
    }
  }

  /** Appending characters other than `c` leaves the last index of `c` where it was. */
  lemma {:induction false} LastIndexSkipsTail(s: string, t: string, c: char)
    requires c !in t
    ensures LastIndex(s + t, c) == LastIndex(s, c)
    decreases |t|
  {
    if |t| > 0 {
      var u := s + t;
      assert u[|u| - 1] == t[|t| - 1];
      assert u[..|u| - 1] == s + t[..|t| - 1];
      LastIndexSkipsTail(s, t[..|t| - 1], c);
    } else {
      assert s + t == s;
    }
  }
}

=== FILE: results.dfy ===
/** The exceptions the modelled code raises, and a result type that carries them. */
module Results {

  /** One constructor per `runtime_error` (or Python exception) the core can raise. */
  datatype Error =
    | FileNameTooLong      // the data-file name check of the tracker constructor
    | EyeUndetermined      // `set_eye_used` got an eye code it does not know
    | PaletteIndex         // `set_image_palette` indexed past the end of `g` or `b`
    | PositionUnbound      // `wait_for_blink_start` returned a local it never assigned
    | EscapePressed        // OpenSesame's keyboard raised `response_error` for Escape

  datatype Result<+T> = Ok(value: T) | Err(error: Error)

  /** An optional argument; `None` is Python's `None` default. */
  datatype Option<+T> = None | Some(value: T) {
    function GetOr(default: T): T
    {
      if Some? then value else default
    }
  }
}

=== FILE: text.dfy ===
/** Character filtering, shared by the log-message stripping and the data-file-name derivation. */
module Text {

  /** A character `str.encode('ascii', 'ignore')` keeps. */
  predicate IsAscii(c: char)
  {
    c as int < 128
  }

  /** A character `isalnum()` accepts (ASCII letters and digits). */
  predicate IsAlnum(c: char)
  {
    ('a' <= c <= 'z') || ('A' <= c <= 'Z') || ('0' <= c <= '9')
  }

  /** The characters of `s` that satisfy `keep`, in their original order. */
  function Filter(s: string, keep: char -> bool): (r: string)
    ensures |r| <= |s|
    ensures forall i :: 0 <= i < |r| ==> keep(r[i])
    ensures forall c :: c in r ==> c in s
  {
    if s == [] then []
    else (if keep(s[0]) then [s[0]] else []) + Filter(s[1..], keep)
  }

  /** Filtering works character by character: it distributes over concatenation. */
  lemma {:induction false} FilterConcat(a: string, b: string, keep: char -> bool)
    ensures Filter(a + b, keep) == Filter(a, keep) + Filter(b, keep)
  {
    if a == [] {
      assert a + b == b;
    } else {
      assert (a + b)[0] == a[0];
      assert (a + b)[1..] == a[1..] + b;
      FilterConcat(a[1..], b, keep);
    }
  }

  /** A string survives filtering unchanged exactly when every character passes. */
  lemma {:induction false} FilterKeepsAllIff(s: string, keep: char -> bool)
    ensures Filter(s, keep) == s <==> forall i :: 0 <= i < |s| ==> keep(s[i])
  {
    if s != [] {
      FilterKeepsAllIff(s[1..], keep);
      if !keep(s[0]) {
        assert |Filter(s, keep)| < |s|;
      }
      if forall i :: 0 <= i < |s| ==> keep(s[i]) {
        assert forall i :: 0 <= i < |s[1..]| ==> keep(s[1..][i]);
      }
    }
  }
}
